=== FILE: README.md ===
# A Dafny model of a read-only FAT12/16/32 parsing engine

This project models the parsing engine of a small FAT12/16/32 image browser written in C. It covers `fat.c`, the macros of `fat.h`, and the sector reads of `HAL.c` that the engine depends on. It proves properties of the model in Dafny.

The engine works in four steps:

- It reads the boot sector of a disk image and derives the volume's geometry. The geometry covers the region layout and the FAT variant with its end-of-file value.
- It decodes the root directory into a listing.
- When the user selects entry `option` of the current listing, it follows that entry's cluster chain through the FAT and returns one of three results:
  - a new listing, for a sub-directory;
  - the file's bytes, for a file;
  - the root listing again.
- It decodes each directory buffer as a sequence of 32-byte records:
  - empty records are skipped;
  - each run of long-name records is collapsed onto the short record that follows it;
  - the short record's fields are copied into an entry.

The model is functional. The image is a byte sequence, and a multi-sector read is a slice of it that may be short at the end of the image. The engine's static state (image, geometry, listing) is an explicit `Session.State` value. The linked list of entries is a `seq<Entry>`. Most of the undefined behaviour the C code can reach becomes a `FatError`: division by zero, reading outside the bytes obtained, and a listing index past the end. One case is not modelled. When bytes_per_sector is not a multiple of 512, the HAL keeps 512-byte sectors. The engine still sizes its buffers with bytes_per_sector, so below 512 every read writes past its buffer. The model returns all the bytes read, as if the buffer were large enough (see "## Left out"). Two further cases are errors in the model, though the C code does not stop there:

- A chain that comes back to a cluster it already visited is `ChainDoesNotEnd`. The C loop keeps growing its buffer until `realloc` fails and the program exits.
- Cluster 0 or 1, as a record's first cluster or inside a chain, is `ReservedCluster`. The C code computes `(c - 2) * sectors_per_cluster` in signed `int`, so on an ordinary volume `first_sector` names the one or two clusters' worth of sectors just before the data region. It reads those sectors and walks on (see "## Left out").

Modules, one per file:

| module | file | models |
|---|---|---|
| `FatBits` | bits.dfy | the `READ_*`, `TIME_*` and `DATE_*` macros of fat.h, and the little-endian encoders they invert |
| `FatResult` | outcome.dfy | the error outcomes and `Result` |
| `FatTypes` | fat_types.dfy | `fat_read_result` and the `fat_entry` record |
| `SectorStore` | sector_store.dfy | the sector reads and the sector-size rule of HAL.c |
| `BootSector` | boot_sector.dfy | `fat_read_boot_info`: BPB fields, region layout, variant |
| `FatTable` | fat_table.dfy | next-cluster lookup for the three variants, and the table encoding it inverts |
| `ClusterChain` | cluster_chain.dfy | first sector of a cluster, the chain walk, and the chain buffer |
| `DirectoryRecords` | directory.dfy | `fat_read_entries` as a function and as the C double loop |
| `Session` | session.dfy | `fat_init`, `fat_read_root`, `fat_read` and `free_entries` |
| `AsWritten` | as_written.dfy | the source defects listed under Findings, modelled as written |

The C walk loops forever on a FAT whose chain comes back to a cluster it has already visited. The model's walk instead carries fuel equal to one more than the number of FAT bytes. `ClusterChain.WalkFindsEveryChain` proves that this fuel never cuts off a chain that ends. It is cut off only when the C loop would never exit.

Where the engine departs from the FAT specification, the model follows the code:

- End of chain is exact equality with 0xFFF, 0xFFFF or 0x0FFFFFFF. The Microsoft FAT specification (v1.03, "FAT Data Structure") uses a range test from 0xFF8, 0xFFF8 or 0x0FFFFFF8 upward.
- The FAT32 root directory starts at cluster 2, fixed. The boot sector's root-cluster field at 0x2C is not read.
- The root region is floor(32 · max_root_entries / bytes_per_sector) sectors. The specification rounds up.
- The first FAT starts at sector 1 and the layout assumes two FATs. The reserved-sector count and FAT count are parsed but not used.
- The 16-bit total-sectors and FAT-size fields are used for every variant.
- Long names are not reconstructed. The `LFN` field is cleared when a long-name run comes before the record (fat.c:266). Otherwise it keeps the indeterminate bytes `malloc` returned. The model uses the empty name in both cases.
- Records starting with 0xE5 (deleted) are not skipped.

## Model

| member | source | states |
|---|---|---|
| FatBits.Read12Even | fat.h:8 | The even-cluster FAT12 entry is below 4096. |
| FatBits.Read12EvenIgnoresHighNibble | fat.h:8 | The even macro does not depend on the high nibble of its second byte, which belongs to the neighbouring odd entry. |
| FatBits.Read12Odd | fat.h:7 | The odd-cluster FAT12 entry is below 4096. |
| FatBits.Read12OddIgnoresLowNibble | fat.h:7 | The odd macro does not depend on the low nibble of its first byte, which belongs to the neighbouring even entry. |
| FatBits.Pack12 | fat.h:7-8 | Packing two 12-bit entries into three bytes gives bytes from which the even macro recovers the first entry and the odd macro the second. |
| FatBits.Unpack12RoundTrip | fat.h:7-8 | Any three bytes are the packing of the two entries the macros read from them, so no bit is lost or shared. |
| FatBits.Read16 | fat.h:9 | READ_16_BITS puts the first byte in the low eight bits and the second byte above it, so each byte can be read back from the word. |
| FatBits.Read16Encode16 | fat.h:9 | READ_16_BITS inverts the two-byte little-endian encoding of a 16-bit word. |
| FatBits.Encode16Read16 | fat.h:9 | Encoding the word READ_16_BITS reads gives back the two bytes. |
| FatBits.Read32 | fat.h:10 | READ_32_BITS is the low word READ_16_BITS(a, b) plus the high word READ_16_BITS(c, d) shifted up 16 bits. |
| FatBits.Read32Encode32 | fat.h:10 | READ_32_BITS inverts the four-byte little-endian encoding of a 32-bit word. |
| FatBits.Encode32Read32 | fat.h:10 | Encoding the word READ_32_BITS reads gives back the four bytes. |
| FatBits.TimeSecond | fat.h:11 | Seconds are even and at most 62. |
| FatBits.TimeMinute | fat.h:12 | Minutes are at most 63. |
| FatBits.TimeHour | fat.h:13 | Hours are at most 31. |
| FatBits.TimeRecompose | fat.h:11-13 | The second, minute and hour fields, put back in their bit positions, rebuild the time word. |
| FatBits.DateDay | fat.h:14 | The day is at most 31. |
| FatBits.DateMonth | fat.h:15 | The month is at most 15. |
| FatBits.DateYear | fat.h:16 | The year lies in 1980..2107. |
| FatBits.DateRecompose | fat.h:14-16 | Day, month and year-1980, put back in their bit positions, rebuild the date word. |
| FatTypes.CodesDistinct | fat.h:19-24 | The three `fat_read` results have distinct codes, so comparing the return value tells them apart. |
| SectorStore.Open | HAL.c:23-39 | Opening an image resets the sector size to 512. |
| SectorStore.UpdateSectorSize | HAL.c:41-50 | A new sector size is adopted exactly when it is a multiple of the current one. Otherwise the old size stays. |
| SectorStore.ReadSectors | HAL.c:64-74 | A read returns at most `count` sectors of image bytes from sector `index` on. It is full when the image covers it, and short only at the end of the image. |
| BootSector.BootSectorOf | fat.c:84 | The boot buffer is the image's first 512 bytes, zero-filled past the end of a shorter image. |
| BootSector.ParseBpb | fat.c:86-92 | Each 16-bit field, re-encoded little-endian, is the two sector bytes at its offset (0x0B, 0x0E, 0x11, 0x13, 0x16). The one-byte fields are the bytes at 0x0D and 0x10. |
| BootSector.ParseEncodeBpb | fat.c:86-92 | Each BPB field is read little-endian at its fixed offset (0x0B, 0x0D, 0x0E, 0x10, 0x11, 0x13, 0x16), so parsing an encoded BPB gives it back. |
| BootSector.EncodeParseBpb | fat.c:86-92 | Writing the parsed fields back at their offsets leaves the sector unchanged, so no byte is read at the wrong offset. |
| BootSector.EndOfFile | fat.c:32-37 | Every end-of-file value is at least 0xFFF. |
| BootSector.EndOfFileInjective | fat.c:32-37 | Distinct variants have distinct end-of-file values. |
| BootSector.VariantFor | fat.c:114-125 | FAT12 below 4085 clusters, FAT16 from 4085 up to 65525, FAT32 from 65525 on. Each is an if-and-only-if. |
| BootSector.VariantMonotone | fat.c:114-125 | More clusters never select a smaller variant. |
| BootSector.Layout | fat.c:102-125 | Ok exactly when neither divisor is zero, otherwise the error of the first zero division. The FATs, root region and data region lie back to back with fat1 ≤ fat2 ≤ root ≤ data, and the root size is the floor quotient. |
| BootSector.ReadBootInfo | fat.c:82-126 | The geometry of a boot sector is consistent with its parsed BPB. It is derived exactly when byte 0x0D is non-zero and, on a volume with a fixed root, bytes-per-sector is non-zero. |
| FatTable.EntryOffset | fat.c:350-378 | FAT16 and FAT32 entries sit in aligned 2- or 4-byte slots, with cluster c's entry in slot c. A FAT12 entry starts at floor(1.5·c), so two entries share every three bytes. |
| FatTable.NextCluster | fat.c:343-386 | The lookup succeeds exactly when the entry lies inside the FAT bytes. Its value fits the variant's width, and a failure names the cluster. |
| FatTable.NextClusterEncodeFat | fat.c:343-386 | For every variant, looking up any cluster in an encoded FAT table returns that cluster's entry, whatever bytes follow the table in the FAT buffer. |
| FatTable.NextClusterExtends | fat.c:343-386 | A lookup reads only its entry's bytes, so appending bytes to a FAT in which the entry lies leaves the result unchanged. |
| FatTable.Fat12RoundTrip | fat.c:348-365 | FAT12: offset (3c)/2, even macro for even clusters and odd macro for odd ones, recover every entry of a packed table. |
| FatTable.Fat16RoundTrip | fat.c:366-375 | FAT16: offset 2c recovers every entry of a table of 16-bit words. |
| FatTable.Fat32RoundTrip | fat.c:376-386 | FAT32: offset 4c recovers every entry of a table of 32-bit words. |
| ClusterChain.FirstSector | fat.c:351-354 | A cluster c ≥ 2 starts past the boot sector and both FATs, and past the fixed root region except on FAT32, at least c-2 clusters in. |
| ClusterChain.FirstSectorsDisjoint | fat.c:351-354 | Distinct clusters start at sectors at least one cluster apart, in cluster order. |
| ClusterChain.FirstSectorInDataRegion | fat.c:369-381 | On a volume whose variant agrees with its root layout, cluster c starts (c-2) clusters into the data region. |
| ClusterChain.Walk | fat.c:390-438 | The walk returns a non-empty list of data clusters inside the FAT that starts at the given cluster. It fails only with a chain error. |
| ClusterChain.WalkSound | fat.c:390-438 | Whatever the walk returns is a complete chain: each link is the FAT entry of its predecessor and the last entry is end-of-file. |
| ClusterChain.WalkComplete | fat.c:390-438 | Given enough fuel, the walk returns every complete chain from its first cluster. |
| ClusterChain.ChainDistinct | fat.c:390-438 | A chain that ends never repeats a cluster. |
| ClusterChain.ChainFitsFat | fat.c:390-438 | A chain that ends has no more clusters than the FAT has bytes. |
| ClusterChain.WalkFindsEveryChain | fat.c:390-438 | With the model's fuel, the walk finds every chain that ends. |
| ClusterChain.WalkStep | fat.c:390-398 | An entry that is not end-of-file continues the chain with that cluster. |
| ClusterChain.WalkLast | fat.c:390 | An end-of-file entry ends the chain at the current cluster. |
| ClusterChain.ClusterData | fat.c:387-389 | One cluster read yields at most sectors_per_cluster sectors of bytes. |
| ClusterChain.ChainData | fat.c:387-408 | The chain buffer: each cluster's read appended after the clusters before it. It carries no contract of its own; ChainDataBounds, ChainDataAppend and ChainDataPlacement state what it holds. |
| ClusterChain.ChainDataBounds | fat.c:387-408 | The chain buffer holds at most one full cluster of bytes per cluster of the chain, and the first cluster's data leads it. |
| ClusterChain.ChainDataAppend | fat.c:400-408 | Growing the buffer by one cluster appends that cluster's data after the data read so far. |
| ClusterChain.ChainDataPlacement | fat.c:400-408 | When every cluster lies inside the image, the buffer holds one full cluster per chain cluster (sector size·spc·count bytes, where the sector size is the one the HAL accepted), with cluster k's data at offset k clusters. |
| ClusterChain.FatBytes | fat.c:324-333 | The FAT buffer holds at most fat_size sectors, and all of them when the image covers them. |
| ClusterChain.FatBytesFromFat1 | fat.c:333 | Every byte of the FAT buffer is the image byte at the same position from sector fat1 on. |
| ClusterChain.ReadChain | fat.c:324-438 | A successful read is the data of a complete chain from the start cluster. For every complete chain from that cluster the read succeeds with exactly its data. |
| ClusterChain.FollowChain | fat.c:387-438 | The C loop, with its cluster count and byte total, computes the same result as ReadChain. The count is the length of the chain and the total is the buffer length. |
| ClusterChain.FollowFrom | fat.c:390-438 | The `while` loop, written one iteration per call: from any cluster the walk has reached, with the clusters before it already in the buffer, it finishes with ReadChain's result, a chain of `count` clusters and a total equal to the buffer length. |
| ClusterChain.StepFrom | fat.c:390-398 | The first step of the walk from a cluster: it fails exactly when the walk fails before using an entry, with the walk's error, and otherwise is the cluster's entry. |
| ClusterChain.ConsChain | fat.c:390-398 | A cluster whose entry is the start of a complete chain, and not end-of-file, extends that chain at the front. |
| ClusterChain.TableChainIffChain | fat.c:343-438 | The chains of an encoded FAT table, followed by any bytes, are exactly the link sequences the table describes. |
| DirectoryRecords.EntryOf | fat.c:276-291 | A short record yields an entry with no long name, an 8-byte name, a 3-byte extension, and its attribute byte. |
| DirectoryRecords.EntryOfEncodeEntry | fat.c:276-291 | Fields are copied from offsets 0, 8, 0x0B, 0x14, 0x16, 0x18, 0x1A and 0x1C, so decoding an encoded short entry gives it back. |
| DirectoryRecords.LongRun | fat.c:263-273 | The long-name run ends at a whole record with another attribute, a multiple of 32 bytes in. |
| DirectoryRecords.LongRunSkipsOnlyLongRecords | fat.c:263-273 | Every record the run skips is a long-name record. |
| DirectoryRecords.Decode | fat.c:238-295 | Every decoded entry is a short entry, entries fit the buffer at 32 bytes each, and the only failure is a truncated record. |
| DirectoryRecords.DecodeNamedSlot | fat.c:240-294 | Long-name records followed by a short record decode to exactly one entry in front of whatever follows. |
| DirectoryRecords.DecodeEncodeSlots | fat.c:238-295 | A directory stored as slots decodes to the entries of its named slots, in on-disk order. Unused slots yield nothing. |
| DirectoryRecords.SkipLongRun | fat.c:263-272 | The inner loop stops at the short record LongRun finds, or runs off the buffer exactly when LongRun fails. |
| DirectoryRecords.ReadEntries | fat.c:228-296 | The C double loop computes Decode, and its count (`linked_list_count`) is the number of entries produced. |
| Session.RootBytes | fat.c:140-222 | FAT12/16: the root is the fixed root region's image bytes, complete when the image covers it. FAT32: it is the data of the chain from cluster 2, for exactly the chains that end. |
| Session.RootListing | fat.c:128-226 | The root listing holds only short entries decoded from the root bytes. Its failures are chain errors or a truncated record. |
| Session.RootListingOfSlots | fat.c:223 | A root directory stored as slots lists the entries of its named slots. |
| Session.Init | fat.c:66-80 | An initialised state holds the image, the consistent geometry of its boot sector, the sector size the HAL accepts from that boot sector, and the root listing. It exists exactly when both can be derived. |
| Session.ReadsRoot | fat.c:316 | The root dispatch: an entry whose first cluster is 0, or any entry on a volume without a fixed root region (max_root_entries 0). The Session.Read contract uses it: such an entry re-reads the root listing and replies FatRoot. |
| Session.Read | fat.c:298-458 | An index past the listing is the only index error. A root-directed entry re-reads the root and reports FatRoot. Otherwise, for the chain of the entry's first cluster: attribute 0x10 decodes it into the new listing (FatSubDir), 0x00 returns its data (FatFile), and any other attribute reports FatRoot and changes nothing. The geometry and image never change. |
| Session.ReadRootRestoresInit | fat.c:316-321 | Going back to the root from the listing `fat_init` produced gives the same state again. |
| Session.ReadIgnoresPriorListing | fat.c:237 | The reply depends only on the selected entry, because the old listing is freed before a new one is built. |
| Session.ReadSubDirListsSlots | fat.c:439-443 | A sub-directory whose chain holds an encoded directory opens to the entries of its named slots. |
| Session.ReadFileReturnsChainData | fat.c:444-448 | A file returns the data of its complete chain and leaves the state unchanged. |
| Session.ReadFileFromTable | fat.c:343-448 | A file whose clusters the FAT's entry table links returns their data in link order. The FAT buffer may hold more bytes after the table, as a whole-sector FAT12 FAT does. |
| AsWritten.LoopNextCluster | fat.c:394 | The loop's lookup agrees with the correct lookup on FAT12, and succeeds exactly when offset (3c)/2 plus the entry width lies inside the FAT. |
| AsWritten.LoopWalk | fat.c:390-438 | The loop as written, reading each entry at offset (3c)/2 on every variant, returns a list that is non-empty, within its bound and starts at the first cluster. Every cluster in it is at least 2, and it ends at the cluster whose entry that lookup reads as end-of-file. |
| AsWritten.WalkAsWritten | fat.c:343-438 | The chain `fat_read` follows as written: the first lookup uses the variant's offset and later ones the loop's. A one-cluster result means the first lookup read end-of-file. A longer one ends at a cluster the loop's lookup reads as end-of-file. |
| AsWritten.LoopWalkAgreesOnFat12 | fat.c:390-438 | On FAT12 the walk as written is the intended walk. |
| AsWritten.Fat16LoopNeverEnds | fat.c:394 | On a FAT16 table linking 2 to 3 and ending at 3, the intended walk is [2, 3], while the walk as written never ends whatever bound it gets. |
| AsWritten.AssembleAsWritten | fat.c:400-408 | The buffer as written has one cluster per chain cluster, but its second cluster slot holds the last cluster read. |
| AsWritten.WriteSecondCluster | fat.c:404-408 | Growing the buffer by one cluster width and reading into the second cluster slot keeps the first cluster and puts the new data in slot two. |
| AsWritten.ThirdClusterOverwritesSecond | fat.c:404-408 | Three one-byte clusters 1, 2, 3 assemble to [1, 3, 0] as written, against [1, 2, 3] intended. |
| AsWritten.Fat32EntryAsWritten | fat.c:382-385 | A FAT32 entry stored in the 16-bit `next_cluster` keeps only its low 16 bits. |
| AsWritten.Fat32WalkAsWritten | fat.c:184-221 | The FAT32 walk as written, with each entry cut to 16 bits, returns a list that starts at the first cluster. Every later cluster in it is below 0x10000. |
| AsWritten.Fat32WalkNeverEnds | fat.c:184-221 | As written, no FAT32 walk of `fat_read_root` ends, for any table, start cluster or bound. The loop of `fat_read` (fat.c:390) never ends on FAT32 either, for the same reason: a `uint16_t` never equals 0x0FFFFFFF. |
| AsWritten.FirstZero | fat.c:281-284 | The position where `strncpy` stops: no zero byte before it, and a zero byte at it unless it is the field width. |
| AsWritten.Strncpy | fat.c:281-284 | The copy has the field's width. Each byte before the first zero byte of the source is copied. That zero byte and every byte after it within the field are zero. A field without a zero byte is copied whole. |
| AsWritten.StrncpyBytes | fat.c:281-284 | Byte i of the copy is zero when some source byte up to i is zero, and is the source byte when none is. |
| AsWritten.CopyWord | fat.c:281-284 | A two-byte field copied with `strncpy` and read little-endian: a zero low byte also clears the high byte, otherwise both bytes are kept. |
| AsWritten.EntryOfAsWritten | fat.c:276-291 | The strncpy decode as written still takes the attribute and the size bytes exactly as the byte copy does. |
| AsWritten.EntryOfAsWrittenAgrees | fat.c:276-291 | When none of the strncpy-copied fields holds a zero byte, the copy as written equals the intended one. |
| AsWritten.StrncpyLosesCluster256 | fat.c:284 | A record storing first cluster 256 (bytes 0x00, 0x01) is read as cluster 0 as written. |

## Left out

- Opening and closing the image file (`kmc_open_file`, `kmc_close_file`): `Session.Init` takes the bytes of an image that opened. A missing file is an I/O failure outside the model.
- Allocation failure: the engine calls `exit` when `malloc`/`realloc` fail. The model has no allocation.
- The copies of the volume name and label type (fat.c:85, fat.c:95-99): they copy bytes into a struct and nothing reads them.
- The boot buffer is static in C and keeps bytes from an earlier, longer image. The model zero-fills: one image per process.
- The interactive front end and the listing printer in app.c are presentation only.
- The 32-bit BPB fields (total sectors at 0x20, FAT size at 0x24, root cluster at 0x2C) are not read by the code and are not modelled.
- Session.Read: the reply carries file bytes only for FatFile. On every path that follows a chain, the C code hands the chain buffer back through `buff_file` (fat.c:449-450). That includes a sub-directory and an entry whose attribute is neither 0x10 nor 0x00, which replies FatRoot. The model drops the buffer on those paths because the reply code tells the caller to ignore it.
- Session.Read: a record whose first cluster is 1, or whose chain reaches cluster 0 or 1, fails with `ReservedCluster`. `fat_read` instead computes `(current_cluster - 2) * sectors_per_cluster` in signed `int` (fat.c:351-354, fat.c:395-399), reads the sectors just before the data region, and follows the reserved FAT entry found there. If that walk ends, it returns 1, 2 or 0 by the attribute (fat.c:439-448); otherwise it never returns. The model would need sector numbers below the data region, which FirstSector leaves out (see ClusterChain.FirstSector).
- ClusterChain.Walk: it stops with `ReservedCluster` at cluster 0 or 1, where the C loop reads the sectors in front of the data region and keeps following the entry at `fat_index`.
- ClusterChain.ReadChain: a start cluster of 0 or 1, or a chain through them, fails with `ReservedCluster`, where the C code reads the sectors in front of the data region. It inherits this gap from ClusterChain.Walk.
- ClusterChain.FollowFrom: it computes ReadChain from the cluster reached, so it has the ReservedCluster and fuel gaps of ClusterChain.FollowChain.
- ClusterChain.FollowChain: it returns `ReservedCluster` for a start cluster or next cluster below 2, where the C loop continues. It computes ReadChain, so it has the same gap.
- ClusterChain.FirstSector: it requires a cluster of at least 2. For clusters 0 and 1 the source's `(current_cluster - 2) * sectors_per_cluster` is a negative `int`. On an ordinary volume the whole sum stays positive and names sectors just before the data region; it wraps into the `uint16_t first_sector` only on volumes past 65535 sectors.
- ClusterChain.Walk: it gives up with `ChainDoesNotEnd` after one more cluster than the FAT has bytes, where the C loop runs forever. WalkFindsEveryChain shows that no chain that ends is cut off.
- ClusterChain.FirstSector: it uses the first lookup's formula for every cluster. The loop at fat.c:395-399 adds root_size on every variant, and the two differ only on a FAT32-sized volume that also has a fixed root.
- ClusterChain.FirstSector: it computes over unbounded integers. In the source `first_sector` is `uint16_t` (fat.c:307) and wraps on volumes past 65535 sectors.
- FatTable.EntryOffset: it computes over unbounded integers. In the source `fat_index` is `uint16_t` (fat.c:305). The FAT16 and FAT32 offsets `c * 2` and `c * 4` are integers and wrap from 65536 on. The FAT12 offset `current_cluster * 1.5` is a `double` converted to `uint16_t`. A value from 65536 on is undefined behaviour there (section 6.3.1.4 of ISO C11), not a wrap. The model takes the exact integer (3c)/2, with no floating point.
- FatBits.Read32: it keeps the mathematical value. In C, `d << 24` is computed in `int` and overflows for d ≥ 128.
- Session.Read: the listing walk uses a `uint16_t` counter (fat.c:303, fat.c:312). In the C an index from 65536 on never ends that walk, which runs off the end of the list. The model serves such an entry when the listing is long enough, and otherwise reports `IndexOutOfRange`.
- Session.Read and Session.RootBytes: when bytes_per_sector is not a multiple of 512, `kmc_update_sector_size` keeps 512-byte sectors (HAL.c:41-50). The engine's buffers are still sized with bytes_per_sector (fat.c:142, fat.c:156, fat.c:166, fat.c:324, fat.c:334, fat.c:400). Below 512, each read writes count·512 bytes into a smaller buffer, a heap overflow. The model returns every byte read and has no buffer to overflow.
- ClusterChain.ChainData: it joins the cluster reads end to end. When the image ends inside a cluster, that read is short, and every later cluster moves down in the model's buffer. The C places each cluster at a fixed cluster-width offset (as written fat.c:404-408; as intended, cluster k at k cluster widths). A short read there leaves a gap, and `total_bytes_read` counts only what was read. `ChainDataPlacement` states the fixed-offset placement for chains whose clusters all lie inside the image.
- The field-name mismatches do not compile as written: `first_cluster_fat32` and `first_cluster_fat12_fat16` (fat.c:281, fat.c:284) against `high_first_cluster` and `low_first_cluster` (fat.h:37, fat.h:40). Likewise `fat_read` is declared with three parameters (fat.h:46) and defined with four (fat.c:298). The model follows the record offsets.

## Findings

| source | as written | input that shows it | evidently intended | confidence | as-written member | corrected member |
|---|---|---|---|---|---|---|
| fat.c:394 | `fat_index = current_cluster*1.5` inside the chain loop, for every variant | FAT16 table with entries 0xFFF8, 0xFFFF, 3, 0xFFFF: the walk from cluster 2 reads cluster 3's entry at byte 4, gets 3, and never ends | offset 2c on FAT16 and 4c on FAT32, as in the first lookup (fat.c:368, fat.c:378) | high, not executed | AsWritten.Fat16LoopNeverEnds | FatTable.NextClusterEncodeFat |
| fat.c:404-408 | each appended cluster is written at offset bytes_per_sector·sectors_per_cluster (also fat.c:212-216) | a chain of three one-byte clusters holding 1, 2, 3: the buffer is [1, 3, ?] | cluster k written at offset k clusters | high, not executed | AsWritten.ThirdClusterOverwritesSecond | ClusterChain.ChainDataPlacement |
| fat.c:306 | `next_cluster` is `uint16_t` (also fat.c:135), compared with 0x0FFFFFFF | any FAT32 chain, e.g. a root cluster 2 whose entry is 0x0FFFFFFF: it reads as 0xFFFF and the loop never ends | a 32-bit cluster variable | high, not executed | AsWritten.Fat32WalkNeverEnds | ClusterChain.WalkLast |
| fat.c:284 | `strncpy` on the two-byte first-cluster field (also fat.c:281-283) | a file record named "A" with first cluster 256 (bytes 0x00, 0x01): it reads as cluster 0, and `fat_read` shows the root instead | a byte copy, as for the size at fat.c:288-291 | high, not executed | AsWritten.StrncpyLosesCluster256 | DirectoryRecords.EntryOfEncodeEntry |

=== FILE: as_written.dfy ===
/** Four places where fat.c does not do what its surrounding code evidently
    intends, each modelled as written next to a lemma that exhibits the
    difference.  The rest of the model uses the intended behaviour. */
module AsWritten {
  import opened FatBits
  import opened FatResult
  import opened FatTypes
  import opened BootSector
  import opened FatTable
  import opened ClusterChain
  import opened DirectoryRecords

  // ---------------------------------------------------------------------------
  // The entry offset inside the chain loop of fat_read

  /** The lookup inside the loop of `fat_read` (fat.c:394, fat.c:413-437):
      the offset is `current_cluster * 1.5` whatever the variant, and the
      entry is then read with the variant's width. */
  function LoopNextCluster(fat: seq<byte>, v: Variant, c: nat): (r: Result<nat>)
    ensures v == Fat12 ==> r == NextCluster(fat, v, c)
    ensures r.Ok? <==> (3 * c) / 2 + EntryBytes(v) <= |fat|
  {
    var off := (3 * c) / 2;
    if off + EntryBytes(v) > |fat| then Err(FatOffsetOutOfRange(c))
    else
      match v
      case Fat12 =>
        if c % 2 == 0 then Ok(Read12Even(fat[off], fat[off + 1]))
        else Ok(Read12Odd(fat[off], fat[off + 1]))
      case Fat16 => Ok(Read16(fat[off], fat[off + 1]))
      case Fat32 => Ok(Read32(fat[off], fat[off + 1], fat[off + 2], fat[off + 3]))
  }

  /** The clusters the loop visits from `c` on, with the loop's lookup. */
  function LoopWalk(fat: seq<byte>, v: Variant, c: nat, fuel: nat): (r: Result<seq<nat>>)
    decreases fuel
    ensures r.Ok? ==> 1 <= |r.value| <= fuel && r.value[0] == c
    ensures r.Ok? ==> forall i :: 0 <= i < |r.value| ==> r.value[i] >= 2
    ensures r.Ok? ==> LoopNextCluster(fat, v, r.value[|r.value| - 1]) == Ok(EndOfFile(v))
  {
    if c < 2 then Err(ReservedCluster(c))
    else if fuel == 0 then Err(ChainDoesNotEnd)
    else
      var next :- LoopNextCluster(fat, v, c);
      if next == EndOfFile(v) then Ok([c])
      else
        var rest :- LoopWalk(fat, v, next, fuel - 1);
        Ok([c] + rest)
  }

  /** The chain `fat_read` follows as written (fat.c:343-438): the first
      lookup uses the variant's offset, every later one the loop's. */
  function WalkAsWritten(fat: seq<byte>, v: Variant, c: nat, fuel: nat): (r: Result<seq<nat>>)
    ensures r.Ok? ==> 1 <= |r.value| <= fuel && r.value[0] == c
    ensures r.Ok? && |r.value| == 1 ==> NextCluster(fat, v, c) == Ok(EndOfFile(v))
    ensures r.Ok? && |r.value| > 1 ==> LoopNextCluster(fat, v, r.value[|r.value| - 1]) == Ok(EndOfFile(v))
  {
    if c < 2 then Err(ReservedCluster(c))
    else if fuel == 0 then Err(ChainDoesNotEnd)
    else
      var next :- NextCluster(fat, v, c);
      if next == EndOfFile(v) then Ok([c])
      else
        var rest :- LoopWalk(fat, v, next, fuel - 1);
        Ok([c] + rest)
  }

  /** On FAT12 the loop's offset is the right one, so the walk as written is
      the intended walk. */
  lemma {:induction false} LoopWalkAgreesOnFat12(fat: seq<byte>, c: nat, fuel: nat)
    ensures LoopWalk(fat, Fat12, c, fuel) == Walk(fat, Fat12, c, fuel)
    ensures WalkAsWritten(fat, Fat12, c, fuel) == Walk(fat, Fat12, c, fuel)
    decreases fuel
  {
    if c >= 2 && fuel > 0 {
      var n := NextCluster(fat, Fat12, c);
      assert LoopNextCluster(fat, Fat12, c) == n;
      if n.Ok? && n.value != EndOfFile(Fat12) {
        LoopWalkAgreesOnFat12(fat, n.value, fuel - 1);
        var rest := Walk(fat, Fat12, n.value, fuel - 1);
        assert Walk(fat, Fat12, c, fuel) == PrefixWith([c], rest) by {
          WalkStep(fat, Fat12, c, fuel, n.value);
        }
      }
    }
  }

  /** A FAT16 table in which cluster 2 links to cluster 3 and cluster 3 ends
      the chain: entries 0xFFF8, 0xFFFF, 3, 0xFFFF. */
  const Fat16Example: seq<byte> := [0xF8, 0xFF, 0xFF, 0xFF, 0x03, 0x00, 0xFF, 0xFF]

  /** The loop reads cluster 3's entry at byte 4, which is cluster 2's entry,
      so cluster 3 appears to link to itself. */
  lemma {:induction false} LoopWalkStuckOnCluster3(fuel: nat)
    ensures LoopWalk(Fat16Example, Fat16, 3, fuel) == Err(ChainDoesNotEnd)
    decreases fuel
  {
    assert LoopNextCluster(Fat16Example, Fat16, 3) == Ok(3);
    if fuel > 0 {
      LoopWalkStuckOnCluster3(fuel - 1);
    }
  }

  /** On that table the intended walk from cluster 2 is [2, 3], while the walk
      as written never ends, whatever bound it is given. */
  lemma Fat16LoopNeverEnds(fuel: nat)
    ensures Walk(Fat16Example, Fat16, 2, Fuel(Fat16Example)) == Ok([2, 3])
    ensures WalkAsWritten(Fat16Example, Fat16, 2, fuel).Err?
  {
    assert NextCluster(Fat16Example, Fat16, 2) == Ok(3);
    assert NextCluster(Fat16Example, Fat16, 3) == Ok(0xFFFF);
    WalkStep(Fat16Example, Fat16, 2, Fuel(Fat16Example), 3);
    WalkLast(Fat16Example, Fat16, 3, Fuel(Fat16Example) - 1);
    assert [2] + [3] == [2, 3];
    if fuel > 0 {
      LoopWalkStuckOnCluster3(fuel - 1);
    }
  }

  // ---------------------------------------------------------------------------
  // Where the loop writes each cluster

  /** The buffer as fat.c:400-408 (and fat.c:203-216) builds it from cluster
      reads of `w` bytes each: it grows by one cluster per step, but every
      cluster after the first is written at offset `w`.  Bytes the growth adds
      and nothing writes are indeterminate in C; the model shows them as
      zeros. */
  function AssembleAsWritten(parts: seq<seq<byte>>, w: nat): (r: seq<byte>)
    requires |parts| >= 1 && Uniform(parts, w)
    ensures |r| == w * |parts|
    ensures w <= |r| && r[..w] == parts[0]
    ensures |parts| >= 2 ==> 2 * w <= |r| && r[w..2 * w] == parts[|parts| - 1]
    decreases |parts|
  {
    var n := |parts|;
    if n == 1 then parts[0]
    else
      var prev := AssembleAsWritten(parts[..n - 1], w);
      var last := parts[n - 1];
      assert |last| == w;
      MulDistributes(n - 1, 1, w);
      if n == 2 then
        assert prev[..w] == prev;
        prev + last
      else
        MulDistributes(n - 3, 2, w);
        WriteSecondCluster(prev, last, w)
  }

  /** One step of the loop as written: the buffer grows by `w` bytes and the
      new cluster lands at offset `w`. */
  function WriteSecondCluster(prev: seq<byte>, last: seq<byte>, w: nat): (r: seq<byte>)
    requires |last| == w && |prev| >= 2 * w
    ensures |r| == |prev| + w
    ensures r[..w] == prev[..w] && r[w..2 * w] == last
  {
    prev[..w] + last + prev[2 * w..] + Zeros(w)
  }

  /** With three one-byte clusters 1, 2, 3 the buffer as written is [1, 3, 0]
      where the chain's data is [1, 2, 3]: the second cluster is lost. */
  lemma ThirdClusterOverwritesSecond()
    ensures AssembleAsWritten([[1], [2], [3]], 1) == [1, 3, 0]
    ensures Flatten([[1], [2], [3]]) == [1, 2, 3]
  {
    var parts: seq<seq<byte>> := [[1], [2], [3]];
    assert parts[..2] == [[1], [2]];
    assert parts[..2][..1] == [[1]];
    assert Flatten(parts[2..]) == [3];
  }

  // ---------------------------------------------------------------------------
  // 16-bit cluster variables against 32-bit FAT entries

  /** `next_cluster` is a `uint16_t` (fat.c:135, fat.c:306), so a FAT32 entry
      read into it (fat.c:191-194, fat.c:217-220, fat.c:382-385,
      fat.c:433-436) keeps only its low 16 bits. */
  function Fat32EntryAsWritten(fat: seq<byte>, c: nat): (r: Result<nat>)
    ensures r.Ok? <==> NextCluster(fat, Fat32, c).Ok?
    ensures r.Ok? ==> r.value < 0x1_0000 && r.value == NextCluster(fat, Fat32, c).value % 0x1_0000
  {
    var e :- NextCluster(fat, Fat32, c);
    Ok(e % 0x1_0000)
  }

  /** The FAT32 walk as written: the truncated entry is compared with the
      FAT32 end-of-file value and used as the next cluster. */
  function Fat32WalkAsWritten(fat: seq<byte>, c: nat, fuel: nat): (r: Result<seq<nat>>)
    decreases fuel
    ensures r.Ok? ==> 1 <= |r.value| <= fuel && r.value[0] == c
    ensures r.Ok? ==> forall i :: 1 <= i < |r.value| ==> r.value[i] < 0x1_0000
  {
    if c < 2 then Err(ReservedCluster(c))
    else if fuel == 0 then Err(ChainDoesNotEnd)
    else
      var next :- Fat32EntryAsWritten(fat, c);
      if next == EndOfFile(Fat32) then Ok([c])
      else
        var rest :- Fat32WalkAsWritten(fat, next, fuel - 1);
        Ok([c] + rest)
  }

  /** No FAT32 chain ends as written: a 16-bit value never equals 0x0FFFFFFF,
      so the walk fails for every table, start cluster and bound, while the
      intended walk ends on the first end-of-file entry (`WalkLast`). */
  lemma {:induction false} Fat32WalkNeverEnds(fat: seq<byte>, c: nat, fuel: nat)
    ensures Fat32WalkAsWritten(fat, c, fuel).Err?
    decreases fuel
  {
    if c >= 2 && fuel > 0 {
      var next := Fat32EntryAsWritten(fat, c);
      if next.Ok? {
        assert next.value != EndOfFile(Fat32);
        Fat32WalkNeverEnds(fat, next.value, fuel - 1);
      }
    }
  }

  // ---------------------------------------------------------------------------
  // strncpy on binary fields

  /** The index of the first zero byte among the first `n` bytes of `src`,
      or `n` when there is none. */
  function FirstZero(src: seq<byte>, n: nat): (k: nat)
    requires n <= |src|
    ensures k <= n
    ensures forall i :: 0 <= i < k ==> src[i] != 0
    ensures k < n ==> src[k] == 0
    decreases n
  {
    if n == 0 || src[0] == 0 then 0
    else
      var k := FirstZero(src[1..], n - 1);
      assert forall i :: 1 <= i < k + 1 ==> src[1..][i - 1] == src[i];
      k + 1
  }

  /** `strncpy` into an `n`-byte field: bytes are copied up to the first zero
      byte and the rest of the field is zero-filled. */
  function Strncpy(src: seq<byte>, n: nat): (r: seq<byte>)
    requires n <= |src|
    ensures |r| == n
    ensures (forall i :: 0 <= i < n ==> src[i] != 0) ==> r == src[..n]
    ensures forall i :: 0 <= i < n ==> r[i] == 0 || r[i] == src[i]
    ensures forall i :: 0 <= i < n ==> r[i] == if i < FirstZero(src, n) then src[i] else 0
    decreases n
  {
    if n == 0 then []
    else if src[0] == 0 then Zeros(n)
    else
      var rest := Strncpy(src[1..], n - 1);
      assert forall i :: 1 <= i < n ==> src[1..][i - 1] == src[i];
      [src[0]] + rest
  }

  /** What `strncpy` leaves in each byte of the field: the source byte before
      the first zero byte, zero from that byte on. */
  lemma StrncpyBytes(src: seq<byte>, n: nat, i: nat)
    requires n <= |src| && i < n
    ensures (exists k :: 0 <= k <= i && src[k] == 0) ==> Strncpy(src, n)[i] == 0
    ensures (forall k :: 0 <= k <= i ==> src[k] != 0) ==> Strncpy(src, n)[i] == src[i]
  {
    var z := FirstZero(src, n);
    if i >= z {
      assert src[z] == 0;
    }
  }

  /** A two-byte little-endian field copied with `strncpy` and then read with
      `READ_16_BITS`: a zero low byte also clears the high byte. */
  function CopyWord(lo: byte, hi: byte): (r: u16)
    ensures r == Read16(lo, if lo == 0 then 0 else hi)
  {
    var w := Strncpy([lo, hi], 2);
    Read16(w[0], w[1])
  }

  /** The fields of a short record as fat.c:276-291 copies them: name,
      extension, high cluster, time, date and low cluster through `strncpy`,
      the attribute and the size byte by byte. */
  function EntryOfAsWritten(rec: seq<byte>): (e: Entry)
    requires |rec| >= RecordSize
    ensures e.attribute == EntryOf(rec).attribute && e.size == EntryOf(rec).size
  {
    Entry([], Strncpy(rec[0..8], 8), Strncpy(rec[8..11], 3), rec[0x0B],
      CopyWord(rec[0x14], rec[0x15]),
      CopyWord(rec[0x16], rec[0x17]),
      CopyWord(rec[0x18], rec[0x19]),
      CopyWord(rec[0x1A], rec[0x1B]),
      Read32(rec[0x1C], rec[0x1D], rec[0x1E], rec[0x1F]))
  }

  /** When none of the copied fields holds a zero byte, the copy as written
      is the intended one. */
  lemma EntryOfAsWrittenAgrees(rec: seq<byte>)
    requires |rec| >= RecordSize
    requires forall i :: 0 <= i < 11 ==> rec[i] != 0
    requires forall i :: 0x14 <= i < 0x1C ==> rec[i] != 0
    ensures EntryOfAsWritten(rec) == EntryOf(rec)
  {
    StrncpyCopiesField(rec, 0, 8);
    StrncpyCopiesField(rec, 8, 11);
    assert rec[0x14] != 0 && rec[0x16] != 0 && rec[0x18] != 0 && rec[0x1A] != 0;
  }

  /** A field without zero bytes is copied whole. */
  lemma StrncpyCopiesField(rec: seq<byte>, a: nat, b: nat)
    requires a <= b <= |rec|
    requires forall i :: a <= i < b ==> rec[i] != 0
    ensures Strncpy(rec[a..b], b - a) == rec[a..b]
  {
    assert forall i :: 0 <= i < b - a ==> rec[a..b][i] == rec[a + i];
    assert rec[a..b][..b - a] == rec[a..b];
  }

  /** A file record named "A" whose first cluster is 256: the low-cluster
      bytes are 0x00, 0x01. */
  const Cluster256Record: seq<byte> := [0x41] + Zeros(0x1A) + [0x01] + Zeros(4)

  /** The copy as written stops at the zero low byte and reads cluster 0,
      which `fat_read` takes for the root (fat.c:316); the record stores
      cluster 256. */
  lemma StrncpyLosesCluster256()
    ensures |Cluster256Record| == RecordSize
    ensures EntryOf(Cluster256Record).lowCluster == 256
    ensures EntryOfAsWritten(Cluster256Record).lowCluster == 0
  {
    var rec := Cluster256Record;
    assert rec[0x1A] == 0 && rec[0x1B] == 1;
    assert rec[0x1A..0x1C] == [0, 1];
  }
}

=== FILE: bits.dfy ===
/** The bit-extraction macros of fat.h over unbounded integers, together with
    the little-endian encoders they invert.

    The macros shift and mask non-negative values; on such values `x >> k` is
    `x / 2^k`, `x << k` is `x * 2^k` and `x & (2^k - 1)` is `x % 2^k`, which is
    how they are written here. */
module FatBits {

  type byte = b: int | 0 <= b < 0x100
  type u16 = w: int | 0 <= w < 0x1_0000
  type u32 = w: int | 0 <= w < 0x1_0000_0000

  /** A run of `n` zero bytes (fresh static storage, or zero padding). */
  function Zeros(n: nat): (r: seq<byte>)
    ensures |r| == n
    ensures forall i :: 0 <= i < n ==> r[i] == 0
  {
    seq(n, _ => 0)
  }

  /** The concatenation of a sequence of byte chunks, in order. */
  function Flatten(chunks: seq<seq<byte>>): seq<byte>
  {
    if |chunks| == 0 then [] else chunks[0] + Flatten(chunks[1..])
  }

  /** Appending a chunk appends its bytes. */
  lemma {:induction false} FlattenAppend(chunks: seq<seq<byte>>, c: seq<byte>)
    ensures Flatten(chunks + [c]) == Flatten(chunks) + c
  {
    if |chunks| > 0 {
      assert (chunks + [c])[1..] == chunks[1..] + [c];
      FlattenAppend(chunks[1..], c);
    } else {
      assert chunks + [c] == [c];
    }
  }

  /** Chunks of at most `w` bytes each flatten to at most `w` bytes per chunk. */
  lemma {:induction false} FlattenAtMost(chunks: seq<seq<byte>>, w: nat)
    requires forall i :: 0 <= i < |chunks| ==> |chunks[i]| <= w
    ensures |Flatten(chunks)| <= w * |chunks|
  {
    if |chunks| > 0 {
      FlattenAtMost(chunks[1..], w);
      assert w * |chunks| == w + w * |chunks[1..]|;
    }
  }

  /** All chunks have width `w`. */
  ghost predicate Uniform(chunks: seq<seq<byte>>, w: nat)
  {
    forall i :: 0 <= i < |chunks| ==> |chunks[i]| == w
  }

  /** Byte `j` of chunk `i` follows the bytes of the chunks before it. */
  lemma {:induction false} FlattenIndex(chunks: seq<seq<byte>>, i: nat, j: nat)
    requires i < |chunks| && j < |chunks[i]|
    ensures |Flatten(chunks[..i])| + j < |Flatten(chunks)|
    ensures Flatten(chunks)[|Flatten(chunks[..i])| + j] == chunks[i][j]
  {
    assert Flatten(chunks) == chunks[0] + Flatten(chunks[1..]);
    if i > 0 {
      FlattenIndex(chunks[1..], i - 1, j);
      assert chunks[1..][..i - 1] == chunks[..i][1..];
    } else {
      assert chunks[..0] == [];
    }
  }

  /** The first `i` chunks of width `w` take `w * i` bytes. */
  lemma {:induction false} FlattenPrefixLength(chunks: seq<seq<byte>>, w: nat, i: nat)
    requires Uniform(chunks, w)
    requires i <= |chunks|
    ensures |Flatten(chunks[..i])| == w * i
  {
    if i > 0 {
      FlattenPrefixLength(chunks[1..], w, i - 1);
      assert chunks[1..][..i - 1] == chunks[..i][1..];
    } else {
      assert chunks[..0] == [];
    }
  }

  /** With chunks of one width `w`, byte `j` of chunk `i` is at `w * i + j`,
      and the concatenation has `w * |chunks|` bytes. */
  lemma UniformIndex(chunks: seq<seq<byte>>, w: nat, i: nat, j: nat)
    requires Uniform(chunks, w)
    requires i < |chunks| && j < w
    ensures |Flatten(chunks)| == w * |chunks|
    ensures w * i + j < |Flatten(chunks)| && Flatten(chunks)[w * i + j] == chunks[i][j]
  {
    FlattenIndex(chunks, i, j);
    FlattenPrefixLength(chunks, w, i);
    FlattenPrefixLength(chunks, w, |chunks|);
    assert chunks[..|chunks|] == chunks;
  }

  // ---------------------------------------------------------------------------
  // FAT12 entries: two 12-bit entries share three bytes

  /** READ_12_BITS_EVEN(a, b): the entry of an even cluster, stored in byte `a`
      and the low nibble of byte `b`. */
  function Read12Even(a: byte, b: byte): (r: nat)
    ensures r < 0x1000
  {
    a + (b % 0x10) * 0x100
  }

  /** READ_12_BITS_ODD(a, b): the entry of an odd cluster, stored in the high
      nibble of byte `a` and in byte `b`. */
  function Read12Odd(a: byte, b: byte): (r: nat)
    ensures r < 0x1000
  {
    a / 0x10 + b * 0x10
  }

  /** The three bytes holding the entries of clusters 2k and 2k+1 of a FAT12
      table, as the format lays them out. */
  function Pack12(e0: nat, e1: nat): (r: seq<byte>)
    requires e0 < 0x1000 && e1 < 0x1000
    ensures |r| == 3
    ensures Read12Even(r[0], r[1]) == e0
    ensures Read12Odd(r[1], r[2]) == e1
  {
    [e0 % 0x100, e0 / 0x100 + (e1 % 0x10) * 0x10, e1 / 0x10]
  }

  /** The even macro ignores the high nibble of its second byte: that nibble
      belongs to the neighbouring odd cluster. */
  lemma Read12EvenIgnoresHighNibble(a: byte, b: byte, b': byte)
    requires b % 0x10 == b' % 0x10
    ensures Read12Even(a, b) == Read12Even(a, b')
  {
  }

  /** The odd macro ignores the low nibble of its first byte: that nibble
      belongs to the neighbouring even cluster. */
  lemma Read12OddIgnoresLowNibble(a: byte, a': byte, b: byte)
    requires a / 0x10 == a' / 0x10
    ensures Read12Odd(a, b) == Read12Odd(a', b)
  {
  }

  /** Conversely, any three bytes are the packing of the two entries the
      macros read from them: no bit is lost or read twice. */
  lemma Unpack12RoundTrip(a: byte, b: byte, c: byte)
    ensures Pack12(Read12Even(a, b), Read12Odd(b, c)) == [a, b, c]
  {
    var e0 := Read12Even(a, b);
    var e1 := Read12Odd(b, c);
    assert e0 / 0x100 == b % 0x10;
    assert e1 % 0x10 == b / 0x10;
    assert e1 / 0x10 == c;
  }

  // ---------------------------------------------------------------------------
  // 16- and 32-bit little-endian words

  /** READ_16_BITS(a, b): the little-endian word with low byte `a`. */
  function Read16(a: byte, b: byte): (r: u16)
    ensures r % 0x100 == a && r / 0x100 == b
  {
    b * 0x100 + a
  }

  /** The two bytes of a 16-bit word, low byte first. */
  function Encode16(w: u16): (r: seq<byte>)
    ensures |r| == 2
  {
    [w % 0x100, w / 0x100]
  }

  lemma Read16Encode16(w: u16)
    ensures Read16(Encode16(w)[0], Encode16(w)[1]) == w
  {
  }

  lemma Encode16Read16(a: byte, b: byte)
    ensures Encode16(Read16(a, b)) == [a, b]
  {
  }

  /** READ_32_BITS(a, b, c, d): the little-endian word with low byte `a`.  In C
      the shift `d << 24` is done in `int`; the model keeps the mathematical
      value, which is what the `uint32_t` destination receives. */
  function Read32(a: byte, b: byte, c: byte, d: byte): (r: u32)
    ensures r == Read16(a, b) + Read16(c, d) * 0x1_0000
  {
    d * 0x100_0000 + c * 0x1_0000 + b * 0x100 + a
  }

  /** The four bytes of a 32-bit word, low byte first. */
  function Encode32(w: u32): (r: seq<byte>)
    ensures |r| == 4
  {
    [w % 0x100, (w / 0x100) % 0x100, (w / 0x1_0000) % 0x100, w / 0x100_0000]
  }

  lemma Read32Encode32(w: u32)
    ensures Read32(Encode32(w)[0], Encode32(w)[1], Encode32(w)[2], Encode32(w)[3]) == w
  {
    var q1 := w / 0x100;
    var q2 := q1 / 0x100;
    assert w == q1 * 0x100 + w % 0x100;
    assert q1 == q2 * 0x100 + q1 % 0x100;
    assert q2 == (w / 0x100_0000) * 0x100 + q2 % 0x100;
    assert q2 == w / 0x1_0000;
  }

  lemma Encode32Read32(a: byte, b: byte, c: byte, d: byte)
    ensures Encode32(Read32(a, b, c, d)) == [a, b, c, d]
  {
    Encode32Bytes(Read32(a, b, c, d), a, b, c, d);
  }

  /** The byte-by-byte arithmetic behind `Encode32Read32`, stated on the
      word's value so that no other contract enters the proof. */
  lemma Encode32Bytes(w: u32, a: byte, b: byte, c: byte, d: byte)
    requires w == d * 0x100_0000 + c * 0x1_0000 + b * 0x100 + a
    ensures Encode32(w) == [a, b, c, d]
  {
    var q1 := d * 0x1_0000 + c * 0x100 + b;
    var q2 := d * 0x100 + c;
    SplitLow8(q1, a);
    SplitLow8(q2, b);
    assert w == q2 * 0x1_0000 + (b * 0x100 + a);
    SplitLow16(q2, b * 0x100 + a);
    SplitLow8(d, c);
    SplitLow24(d, c * 0x1_0000 + b * 0x100 + a);
  }

  /** Dividing `hi·2^8 + lo` by 2^8 separates the two parts. */
  lemma SplitLow8(hi: nat, lo: nat)
    requires lo < 0x100
    ensures (hi * 0x100 + lo) / 0x100 == hi && (hi * 0x100 + lo) % 0x100 == lo
  {
  }

  /** Dividing `hi·2^16 + lo` by 2^16 separates the two parts. */
  lemma SplitLow16(hi: nat, lo: nat)
    requires lo < 0x1_0000
    ensures (hi * 0x1_0000 + lo) / 0x1_0000 == hi
  {
  }

  /** Dividing `hi·2^24 + lo` by 2^24 separates the two parts. */
  lemma SplitLow24(hi: nat, lo: nat)
    requires lo < 0x100_0000
    ensures (hi * 0x100_0000 + lo) / 0x100_0000 == hi
  {
  }

  // ---------------------------------------------------------------------------
  // Packed time and date words of a directory record

  /** TIME_SECOND: bits 0..4 count two-second steps. */
  function TimeSecond(w: u16): (r: nat)
    ensures r % 2 == 0 && r <= 62
  {
    (w % 0x20) * 2
  }

  /** TIME_MINUTE: bits 5..10. */
  function TimeMinute(w: u16): (r: nat)
    ensures r <= 63
  {
    (w / 0x20) % 0x40
  }

  /** TIME_HOUR: bits 11..15. */
  function TimeHour(w: u16): (r: nat)
    ensures r <= 31
  {
    w / 0x800
  }

  /** DATE_DAY: bits 0..4. */
  function DateDay(w: u16): (r: nat)
    ensures r <= 31
  {
    w % 0x20
  }

  /** DATE_MONTH: bits 5..8. */
  function DateMonth(w: u16): (r: nat)
    ensures r <= 15
  {
    (w / 0x20) % 0x10
  }

  /** DATE_YEAR: bits 9..15, counted from 1980. */
  function DateYear(w: u16): (r: nat)
    ensures 1980 <= r <= 2107
  {
    w / 0x200 + 1980
  }

  /** The three time fields partition the word: putting them back in their
      bit positions gives the original word. */
  lemma TimeRecompose(w: u16)
    ensures TimeSecond(w) / 2 + TimeMinute(w) * 0x20 + TimeHour(w) * 0x800 == w
  {
    var q := w / 0x20;
    assert w == q * 0x20 + w % 0x20;
    assert q == (q / 0x40) * 0x40 + q % 0x40;
    assert q / 0x40 == w / 0x800;
  }

  /** The three date fields partition the word. */
  lemma DateRecompose(w: u16)
    ensures DateDay(w) + DateMonth(w) * 0x20 + (DateYear(w) - 1980) * 0x200 == w
  {
    var q := w / 0x20;
    assert w == q * 0x20 + w % 0x20;
    assert q == (q / 0x10) * 0x10 + q % 0x10;
    assert q / 0x10 == w / 0x200;
  }
}

=== FILE: boot_sector.dfy ===
/** Boot-sector interpretation (`fat_read_boot_info`, fat.c:82-126): the BIOS
    Parameter Block fields, the region layout derived from them, and the FAT
    variant chosen from the cluster count. */
module BootSector {
  import opened FatBits
  import opened FatResult
  import opened SectorStore

  /** Size of the static `boot_info` buffer. */
  const BootSectorSize: nat := 512

  /** The BPB fields the engine keeps (`fat_boot_info_struct_t` without the
      jump, OEM name and label bytes, which are only copied). */
  datatype Bpb = Bpb(
    bytesPerSector: u16,      // offset 0x0B
    sectorsPerCluster: byte,  // offset 0x0D
    reservedSectors: u16,     // offset 0x0E
    fatCount: byte,           // offset 0x10
    maxRootEntries: u16,      // offset 0x11
    totalSectors: u16,        // offset 0x13
    fatSize: u16              // offset 0x16
  )

  /** The boot buffer after `kmc_read_sector(0, boot_info)`: the image's first
      512 bytes, with the zero-initialised static storage left in place where
      the image is shorter. */
  function BootSectorOf(d: Disk): (r: seq<byte>)
    requires d.sectorSize == DefaultSectorSize
    ensures |r| == BootSectorSize
    ensures forall k :: 0 <= k < BootSectorSize ==> r[k] == (if k < |d.image| then d.image[k] else 0)
  {
    var got := ReadSectors(d, 0, 1);
    got + Zeros(BootSectorSize - |got|)
  }

  /** The BPB fields at their fixed offsets, multi-byte fields little-endian
      (fat.c:86-92).  The same 16-bit fields are read on every variant. */
  function ParseBpb(sector: seq<byte>): (r: Bpb)
    requires |sector| == BootSectorSize
    ensures Encode16(r.bytesPerSector) == sector[0x0B..0x0D] && r.sectorsPerCluster == sector[0x0D]
    ensures Encode16(r.reservedSectors) == sector[0x0E..0x10] && r.fatCount == sector[0x10]
    ensures Encode16(r.maxRootEntries) == sector[0x11..0x13]
    ensures Encode16(r.totalSectors) == sector[0x13..0x15]
    ensures Encode16(r.fatSize) == sector[0x16..0x18]
  {
    Encode16Read16(sector[0x0B], sector[0x0C]);
    Encode16Read16(sector[0x0E], sector[0x0F]);
    Encode16Read16(sector[0x11], sector[0x12]);
    Encode16Read16(sector[0x13], sector[0x14]);
    Encode16Read16(sector[0x16], sector[0x17]);
    Bpb(
      Read16(sector[0x0B], sector[0x0C]),
      sector[0x0D],
      Read16(sector[0x0E], sector[0x0F]),
      sector[0x10],
      Read16(sector[0x11], sector[0x12]),
      Read16(sector[0x13], sector[0x14]),
      Read16(sector[0x16], sector[0x17]))
  }

  /** Writes the fields of `b` into `sector` at their offsets; every other
      byte, including the media byte at 0x15, is left as it was. */
  function EncodeBpb(b: Bpb, sector: seq<byte>): (r: seq<byte>)
    requires |sector| == BootSectorSize
    ensures |r| == BootSectorSize
    ensures forall k :: 0 <= k < 0x0B || k == 0x15 || 0x18 <= k < BootSectorSize ==> r[k] == sector[k]
  {
    sector[..0x0B] + Encode16(b.bytesPerSector) + [b.sectorsPerCluster]
    + Encode16(b.reservedSectors) + [b.fatCount] + Encode16(b.maxRootEntries)
    + Encode16(b.totalSectors) + [sector[0x15]] + Encode16(b.fatSize) + sector[0x18..]
  }

  /** Decoding a sector into which a BPB was encoded gives that BPB back. */
  lemma ParseEncodeBpb(b: Bpb, sector: seq<byte>)
    requires |sector| == BootSectorSize
    ensures ParseBpb(EncodeBpb(b, sector)) == b
  {
    var r := EncodeBpb(b, sector);
    Read16Encode16(b.bytesPerSector);
    Read16Encode16(b.reservedSectors);
    Read16Encode16(b.maxRootEntries);
    Read16Encode16(b.totalSectors);
    Read16Encode16(b.fatSize);
  }

  /** Re-encoding the decoded fields reproduces the sector: the fields the
      engine reads are exactly the bytes 0x0B-0x14 and 0x16-0x17. */
  lemma EncodeParseBpb(sector: seq<byte>)
    requires |sector| == BootSectorSize
    ensures EncodeBpb(ParseBpb(sector), sector) == sector
  {
    var b := ParseBpb(sector);
    Encode16Read16(sector[0x0B], sector[0x0C]);
    Encode16Read16(sector[0x0E], sector[0x0F]);
    Encode16Read16(sector[0x11], sector[0x12]);
    Encode16Read16(sector[0x13], sector[0x14]);
    Encode16Read16(sector[0x16], sector[0x17]);
    var r := EncodeBpb(b, sector);
    forall k | 0 <= k < BootSectorSize
      ensures r[k] == sector[k]
    {
    }
  }

  // ---------------------------------------------------------------------------
  // FAT variant

  datatype Variant = Fat12 | Fat16 | Fat32

  /** `enum fat_EOF`: the single entry value the engine accepts as the end of
      a chain on each variant. */
  function EndOfFile(v: Variant): (r: u32)
    ensures r >= 0xFFF
  {
    match v
    case Fat12 => 0xFFF
    case Fat16 => 0xFFFF
    case Fat32 => 0x0FFF_FFFF
  }

  /** Each variant has its own end-of-chain value, so the value fixes the
      variant (the engine stores only `end_of_file`). */
  lemma EndOfFileInjective(v: Variant, w: Variant)
    ensures EndOfFile(v) == EndOfFile(w) <==> v == w
  {
  }

  /** The variant of a volume with `clusters` clusters (fat.c:114-125). */
  function VariantFor(clusters: nat): (v: Variant)
    ensures v == Fat12 <==> clusters < 4085
    ensures v == Fat16 <==> 4085 <= clusters < 65525
    ensures v == Fat32 <==> 65525 <= clusters
  {
    if clusters < 4085 then Fat12
    else if clusters < 65525 then Fat16
    else Fat32
  }

  function Rank(v: Variant): nat
  {
    match v
    case Fat12 => 0
    case Fat16 => 1
    case Fat32 => 2
  }

  /** A volume with more clusters never gets a narrower variant. */
  lemma VariantMonotone(n: nat, m: nat)
    requires n <= m
    ensures Rank(VariantFor(n)) <= Rank(VariantFor(m))
  {
  }

  // ---------------------------------------------------------------------------
  // Region layout

  /** The geometry the engine derives once per image: the BPB, the first
      sector of each region and the variant. */
  datatype Geometry = Geometry(
    bpb: Bpb,
    fat1: nat,      // fat1_first_index
    fat2: nat,      // fat2_first_index
    root: nat,      // root_first_index (fixed root region only)
    rootSize: nat,  // root_size, in sectors (fixed root region only)
    data: nat,      // data_first_index
    variant: Variant)

  /** The layout relations of fat.c:102-113: the FATs follow the boot sector
      back to back, then (when the volume has a fixed root) the root region
      of floor(32 * max_root_entries / bytes_per_sector) sectors, then data.
      A volume without a fixed root keeps the zero-initialised root fields. */
  ghost predicate Consistent(g: Geometry)
  {
    && g.bpb.sectorsPerCluster != 0
    && g.fat1 == 1
    && g.fat2 == g.fat1 + g.bpb.fatSize
    && (g.bpb.maxRootEntries != 0 ==>
          && g.bpb.bytesPerSector != 0
          && g.root == g.fat2 + g.bpb.fatSize
          && g.rootSize * g.bpb.bytesPerSector <= 32 * g.bpb.maxRootEntries
          && 32 * g.bpb.maxRootEntries < (g.rootSize + 1) * g.bpb.bytesPerSector
          && g.data == g.root + g.rootSize)
    && (g.bpb.maxRootEntries == 0 ==>
          g.data == g.fat2 + g.bpb.fatSize && g.root == 0 && g.rootSize == 0)
    && g.variant == VariantFor(g.bpb.totalSectors / g.bpb.sectorsPerCluster)
  }

  /** Region layout and variant of a BPB (fat.c:102-125).  The two divisions
      of the source fail on a zero divisor, in source order. */
  function Layout(b: Bpb): (r: Result<Geometry>)
    ensures r.Ok? <==> b.sectorsPerCluster != 0 && (b.maxRootEntries == 0 || b.bytesPerSector != 0)
    ensures r.Err? && b.maxRootEntries != 0 && b.bytesPerSector == 0 ==> r.error == ZeroBytesPerSector
    ensures r.Err? && (b.maxRootEntries == 0 || b.bytesPerSector != 0) ==> r.error == ZeroSectorsPerCluster
    ensures r.Ok? ==> r.value.bpb == b && Consistent(r.value)
    ensures r.Ok? ==> r.value.fat1 <= r.value.fat2 <= r.value.data
    ensures r.Ok? && b.maxRootEntries != 0 ==> r.value.fat2 <= r.value.root <= r.value.data
  {
    var fat1 := 0 + 1;
    var fat2 := fat1 + b.fatSize;
    if b.maxRootEntries != 0 && b.bytesPerSector == 0 then Err(ZeroBytesPerSector)
    else if b.sectorsPerCluster == 0 then Err(ZeroSectorsPerCluster)
    else
      var variant := VariantFor(b.totalSectors / b.sectorsPerCluster);
      if b.maxRootEntries != 0 then
        var root := fat2 + b.fatSize;
        var rootSize := (32 * b.maxRootEntries) / b.bytesPerSector;
        Ok(Geometry(b, fat1, fat2, root, rootSize, root + rootSize, variant))
      else
        Ok(Geometry(b, fat1, fat2, 0, 0, fat2 + b.fatSize, variant))
  }

  /** `fat_read_boot_info` as a whole: the geometry of a 512-byte boot sector. */
  function ReadBootInfo(sector: seq<byte>): (r: Result<Geometry>)
    requires |sector| == BootSectorSize
    ensures r.Ok? ==> r.value.bpb == ParseBpb(sector) && Consistent(r.value)
    ensures r.Ok? <==> sector[0x0D] != 0 && (Read16(sector[0x11], sector[0x12]) == 0 || Read16(sector[0x0B], sector[0x0C]) != 0)
  {
    Layout(ParseBpb(sector))
  }
}

=== FILE: cluster_chain.dfy ===
/** Cluster-chain walking (`fat_read`, fat.c:324-438, and the FAT32 branch of
    `fat_read_root`, fat.c:154-221): where a cluster's data lies, the chain of
    clusters the FAT links from a start cluster, and the buffer assembled from
    their data.

    The C loop runs while the entry read is not the variant's end-of-file
    value and never stops on a FAT that links a cluster back into its own
    chain.  The model walks with fuel one more than the FAT's size in bytes;
    `WalkFindsEveryChain` shows that this bound cuts off exactly the walks that
    would never end. */
module ClusterChain {
  import opened FatBits
  import opened FatResult
  import opened SectorStore
  import opened BootSector
  import opened FatTable

  // ---------------------------------------------------------------------------
  // Where a cluster lies

  /** The first sector of cluster `c` (fat.c:351-354, fat.c:369-372,
      fat.c:379-381): past the boot sector, two FATs and, unless the variant
      is FAT32, the fixed root region.  Clusters 0 and 1 are outside the
      model: for them the source's signed `(c - 2) * sectors_per_cluster` is
      negative, and the sum names sectors just before the data region. */
  function FirstSector(g: Geometry, c: nat): (r: nat)
    requires c >= 2
    ensures r >= 1 + 2 * g.bpb.fatSize + (c - 2) * g.bpb.sectorsPerCluster
    ensures g.variant != Fat32 ==> r >= 1 + 2 * g.bpb.fatSize + g.rootSize
  {
    var s := g.bpb.sectorsPerCluster;
    if g.variant == Fat32 then 1 + g.bpb.fatSize * 2 + (c - 2) * s
    else 1 + g.bpb.fatSize * 2 + g.rootSize + (c - 2) * s
  }

  /** Distinct clusters occupy disjoint sector ranges, in cluster order. */
  lemma FirstSectorsDisjoint(g: Geometry, c: nat, e: nat)
    requires 2 <= c < e
    ensures FirstSector(g, c) + g.bpb.sectorsPerCluster <= FirstSector(g, e)
  {
    var s := g.bpb.sectorsPerCluster;
    var a: nat := c - 2;
    var b: nat := e - c - 1;
    assert e - 2 == a + b + 1;
    assert (a + b + 1) * s == a * s + b * s + s by {
      MulDistributes(a, b + 1, s);
      MulDistributes(b, 1, s);
    }
  }

  lemma MulDistributes(x: nat, y: nat, s: nat)
    ensures (x + y) * s == x * s + y * s
  {
  }

  /** On a volume whose variant agrees with its root layout (a fixed root
      region exactly when the variant is not FAT32), cluster `c` starts
      `(c - 2)` clusters into the data region the boot sector defines. */
  lemma FirstSectorInDataRegion(g: Geometry, c: nat)
    requires Consistent(g) && c >= 2
    requires g.variant == Fat32 ==> g.bpb.maxRootEntries == 0
    ensures FirstSector(g, c) == g.data + (c - 2) * g.bpb.sectorsPerCluster
    ensures g.data <= FirstSector(g, c)
  {
  }

  // ---------------------------------------------------------------------------
  // Following the links

  /** The clusters of the chain from `c`, in link order: each cluster's entry
      is read; the end-of-file value ends the chain, anything else is the next
      cluster.  `fuel` bounds the number of clusters.  A chain that reaches
      cluster 0 or 1 fails with `ReservedCluster`; the C code reads the
      sectors just before the data region and walks on. */
  function Walk(fat: seq<byte>, v: Variant, c: nat, fuel: nat): (r: Result<seq<nat>>)
    decreases fuel
    ensures r.Ok? ==> 1 <= |r.value| <= fuel && r.value[0] == c
    ensures r.Err? ==> ChainError(r.error)
    ensures r.Ok? ==> forall i :: 0 <= i < |r.value| ==> 2 <= r.value[i] < |fat|
  {
    if c < 2 then Err(ReservedCluster(c))
    else if fuel == 0 then Err(ChainDoesNotEnd)
    else
      var next :- NextCluster(fat, v, c);
      if next == EndOfFile(v) then Ok([c])
      else
        var rest :- Walk(fat, v, next, fuel - 1);
        Ok([c] + rest)
  }

  /** The failures a chain walk can meet. */
  predicate ChainError(e: FatError)
  {
    e.ReservedCluster? || e.FatOffsetOutOfRange? || e == ChainDoesNotEnd
  }

  /** Cluster `i` of `cs` links to cluster `i + 1`, which is not the
      end-of-file value. */
  ghost predicate LinkAt(fat: seq<byte>, v: Variant, cs: seq<nat>, i: nat)
    requires i + 1 < |cs|
  {
    NextCluster(fat, v, cs[i]) == Ok(cs[i + 1]) && cs[i + 1] != EndOfFile(v)
  }

  /** Each cluster but the last links to its successor. */
  ghost predicate Links(fat: seq<byte>, v: Variant, cs: seq<nat>)
  {
    forall i: nat :: i + 1 < |cs| ==> LinkAt(fat, v, cs, i)
  }

  /** `cs` is a complete chain of the FAT: data clusters only, linked in
      order, the last one's entry being the end-of-file value. */
  ghost predicate IsChain(fat: seq<byte>, v: Variant, cs: seq<nat>)
  {
    && |cs| >= 1
    && (forall i :: 0 <= i < |cs| ==> cs[i] >= 2)
    && Links(fat, v, cs)
    && NextCluster(fat, v, cs[|cs| - 1]) == Ok(EndOfFile(v))
  }

  /** Whatever the walk returns is a complete chain from its start. */
  lemma {:induction false} WalkSound(fat: seq<byte>, v: Variant, c: nat, fuel: nat)
    requires Walk(fat, v, c, fuel).Ok?
    ensures IsChain(fat, v, Walk(fat, v, c, fuel).value)
    decreases fuel
  {
    var cs := Walk(fat, v, c, fuel).value;
    WalkOk(fat, v, c, fuel);
    var next := NextCluster(fat, v, c).value;
    if next == EndOfFile(v) {
      assert cs == [c];
    } else {
      WalkSound(fat, v, next, fuel - 1);
      ConsChain(fat, v, c, Walk(fat, v, next, fuel - 1).value);
    }
  }

  /** A cluster whose entry names the start of a complete chain, and is not
      the end-of-file value, extends that chain at the front. */
  lemma ConsChain(fat: seq<byte>, v: Variant, c: nat, rest: seq<nat>)
    requires IsChain(fat, v, rest) && c >= 2
    requires NextCluster(fat, v, c) == Ok(rest[0]) && rest[0] != EndOfFile(v)
    ensures IsChain(fat, v, [c] + rest)
  {
    var cs := [c] + rest;
    assert Links(fat, v, cs) by {
      forall i: nat | i + 1 < |cs|
        ensures LinkAt(fat, v, cs, i)
      {
        if i > 0 {
          assert LinkAt(fat, v, rest, i - 1);
          assert cs[i] == rest[i - 1] && cs[i + 1] == rest[i];
        }
      }
    }
    assert cs[|cs| - 1] == rest[|rest| - 1];
  }

  /** One step of a successful walk: its first cluster's entry either ends
      the chain there or names the cluster the rest of the walk starts at. */
  lemma WalkOk(fat: seq<byte>, v: Variant, c: nat, fuel: nat)
    requires Walk(fat, v, c, fuel).Ok?
    ensures c >= 2 && fuel >= 1 && NextCluster(fat, v, c).Ok?
    ensures NextCluster(fat, v, c).value == EndOfFile(v) ==> Walk(fat, v, c, fuel).value == [c]
    ensures NextCluster(fat, v, c).value != EndOfFile(v) ==>
              && Walk(fat, v, NextCluster(fat, v, c).value, fuel - 1).Ok?
              && Walk(fat, v, c, fuel).value == [c] + Walk(fat, v, NextCluster(fat, v, c).value, fuel - 1).value
  {
  }

  /** Every complete chain is found by a walk with fuel for its length. */
  lemma {:induction false} WalkComplete(fat: seq<byte>, v: Variant, cs: seq<nat>, fuel: nat)
    requires IsChain(fat, v, cs)
    requires |cs| <= fuel
    ensures Walk(fat, v, cs[0], fuel) == Ok(cs)
    decreases |cs|
  {
    if |cs| > 1 {
      var rest := cs[1..];
      assert IsChain(fat, v, rest) by {
        forall i: nat | i + 1 < |rest|
          ensures LinkAt(fat, v, rest, i)
        {
          assert LinkAt(fat, v, cs, i + 1);
          assert rest[i] == cs[i + 1] && rest[i + 1] == cs[i + 2];
        }
      }
      WalkComplete(fat, v, rest, fuel - 1);
      assert LinkAt(fat, v, cs, 0);
      assert cs == [cs[0]] + rest;
    } else {
      assert cs == [cs[0]];
    }
  }

  /** A complete chain never repeats a cluster: the links are a function, so
      a repeated cluster would make the chain repeat forever instead of ending. */
  lemma ChainDistinct(fat: seq<byte>, v: Variant, cs: seq<nat>, i: nat, j: nat)
    requires IsChain(fat, v, cs)
    requires i < j < |cs|
    ensures cs[i] != cs[j]
  {
    if cs[i] == cs[j] {
      ChainShift(fat, v, cs, i, j, |cs| - 1 - j);
      LinkAtHolds(fat, v, cs, i + (|cs| - 1 - j));
      assert false;
    }
  }

  lemma LinkAtHolds(fat: seq<byte>, v: Variant, cs: seq<nat>, i: nat)
    requires IsChain(fat, v, cs) && i + 1 < |cs|
    ensures NextCluster(fat, v, cs[i]) == Ok(cs[i + 1]) && cs[i + 1] != EndOfFile(v)
  {
    assert LinkAt(fat, v, cs, i);
  }

  /** Two positions holding the same cluster agree on every later position. */
  lemma {:induction false} ChainShift(fat: seq<byte>, v: Variant, cs: seq<nat>, i: nat, j: nat, k: nat)
    requires IsChain(fat, v, cs)
    requires i < j && j + k < |cs|
    requires cs[i] == cs[j]
    ensures cs[i + k] == cs[j + k]
    decreases k
  {
    if k > 0 {
      ChainShift(fat, v, cs, i, j, k - 1);
      assert LinkAt(fat, v, cs, i + k - 1);
      assert LinkAt(fat, v, cs, j + k - 1);
    }
  }

  /** A sequence of distinct values below `n` has at most `n` elements. */
  lemma {:induction false} DistinctBelow(cs: seq<nat>, n: nat)
    requires forall i, j :: 0 <= i < j < |cs| ==> cs[i] != cs[j]
    requires forall i :: 0 <= i < |cs| ==> cs[i] < n
    ensures |cs| <= n
    decreases |cs|
  {
    if |cs| > 0 {
      // Drop the last value x and close the gap it leaves below n.
      var x := cs[|cs| - 1];
      var rest := seq(|cs| - 1, i requires 0 <= i < |cs| - 1 =>
        if cs[i] > x then cs[i] - 1 else cs[i]);
      forall i | 0 <= i < |rest|
        ensures rest[i] < n - 1
      {
        assert cs[i] != x;
      }
      forall i, j | 0 <= i < j < |rest|
        ensures rest[i] != rest[j]
      {
        assert cs[i] != x && cs[j] != x && cs[i] != cs[j];
      }
      DistinctBelow(rest, n - 1);
    }
  }

  /** A complete chain has no more clusters than the FAT has bytes. */
  lemma ChainFitsFat(fat: seq<byte>, v: Variant, cs: seq<nat>)
    requires IsChain(fat, v, cs)
    ensures |cs| <= |fat|
  {
    forall i, j | 0 <= i < j < |cs|
      ensures cs[i] != cs[j]
    {
      ChainDistinct(fat, v, cs, i, j);
    }
    forall i | 0 <= i < |cs|
      ensures cs[i] < |fat|
    {
      if i + 1 < |cs| {
        assert LinkAt(fat, v, cs, i);
      }
    }
    DistinctBelow(cs, |fat|);
  }

  /** The fuel of the engine's walk: one more than the number of FAT bytes. */
  function Fuel(fat: seq<byte>): nat
  {
    |fat| + 1
  }

  /** With the engine's fuel, the walk from a cluster returns the complete
      chain starting there whenever one exists; it fails with
      `ChainDoesNotEnd` only when the C loop would never exit. */
  lemma WalkFindsEveryChain(fat: seq<byte>, v: Variant, cs: seq<nat>)
    requires IsChain(fat, v, cs)
    ensures Walk(fat, v, cs[0], Fuel(fat)) == Ok(cs)
  {
    ChainFitsFat(fat, v, cs);
    WalkComplete(fat, v, cs, Fuel(fat));
  }

  // ---------------------------------------------------------------------------
  // The chain buffer

  /** The bytes one cluster read returns: `sectors_per_cluster` sectors from
      its first sector (possibly short at the end of the image). */
  function ClusterData(d: Disk, g: Geometry, c: nat): (r: seq<byte>)
    requires c >= 2
    ensures |r| <= g.bpb.sectorsPerCluster * d.sectorSize
  {
    ReadSectors(d, FirstSector(g, c), g.bpb.sectorsPerCluster)
  }

  /** The number of bytes a full cluster read returns. */
  function ClusterBytes(d: Disk, g: Geometry): nat
  {
    g.bpb.sectorsPerCluster * d.sectorSize
  }

  /** Cluster `c` lies wholly inside the image. */
  predicate ClusterInImage(d: Disk, g: Geometry, c: nat)
    requires c >= 2
  {
    (FirstSector(g, c) + g.bpb.sectorsPerCluster) * d.sectorSize <= |d.image|
  }

  function ClusterReads(d: Disk, g: Geometry, cs: seq<nat>): (r: seq<seq<byte>>)
    requires forall i :: 0 <= i < |cs| ==> cs[i] >= 2
    ensures |r| == |cs|
    ensures forall i :: 0 <= i < |cs| ==> r[i] == ClusterData(d, g, cs[i])
  {
    seq(|cs|, i requires 0 <= i < |cs| => ClusterData(d, g, cs[i]))
  }

  /** The buffer a chain walk assembles: the data of each cluster appended
      after the data of the clusters before it (`ChainDataBounds`,
      `ChainDataAppend` and `ChainDataPlacement` state what it holds). */
  function ChainData(d: Disk, g: Geometry, cs: seq<nat>): seq<byte>
    requires forall i :: 0 <= i < |cs| ==> cs[i] >= 2
  {
    Flatten(ClusterReads(d, g, cs))
  }

  /** The buffer never exceeds one full cluster per cluster of the chain, and
      the first cluster's data leads it. */
  lemma ChainDataBounds(d: Disk, g: Geometry, cs: seq<nat>)
    requires forall i :: 0 <= i < |cs| ==> cs[i] >= 2
    ensures |ChainData(d, g, cs)| <= ClusterBytes(d, g) * |cs|
    ensures |cs| > 0 ==> ClusterData(d, g, cs[0]) <= ChainData(d, g, cs)
  {
    var parts := ClusterReads(d, g, cs);
    FlattenAtMost(parts, ClusterBytes(d, g));
    if |cs| > 0 {
      assert Flatten(parts) == parts[0] + Flatten(parts[1..]);
    }
  }

  /** When every cluster of the chain lies inside the image, the buffer holds
      exactly one full cluster per cluster of the chain, and cluster `k`'s
      data sits at offset `k` clusters (the realloc growth of fat.c:400-403
      with each cluster written at its own offset). */
  lemma ChainDataPlacement(d: Disk, g: Geometry, cs: seq<nat>, k: nat, j: nat)
    requires forall i :: 0 <= i < |cs| ==> cs[i] >= 2 && ClusterInImage(d, g, cs[i])
    requires k < |cs| && j < ClusterBytes(d, g)
    ensures |ChainData(d, g, cs)| == ClusterBytes(d, g) * |cs|
    ensures ClusterBytes(d, g) * k + j < |ChainData(d, g, cs)|
    ensures j < |ClusterData(d, g, cs[k])|
            && ChainData(d, g, cs)[ClusterBytes(d, g) * k + j] == ClusterData(d, g, cs[k])[j]
  {
    var parts := ClusterReads(d, g, cs);
    var w := ClusterBytes(d, g);
    forall i | 0 <= i < |cs|
      ensures |parts[i]| == w
    {
      var s := g.bpb.sectorsPerCluster;
      var f := FirstSector(g, cs[i]);
      assert (f + s) * d.sectorSize == f * d.sectorSize + s * d.sectorSize;
    }
    UniformIndex(parts, w, k, j);
  }

  /** The bytes of FAT1 as `fat_read` loads them (fat.c:333). */
  function FatBytes(d: Disk, g: Geometry): (r: seq<byte>)
    ensures |r| <= g.bpb.fatSize * d.sectorSize
    ensures (g.fat1 + g.bpb.fatSize) * d.sectorSize <= |d.image| ==> |r| == g.bpb.fatSize * d.sectorSize
  {
    ReadSectors(d, g.fat1, g.bpb.fatSize)
  }

  /** The FAT buffer holds the image's bytes from the first FAT sector on. */
  lemma FatBytesFromFat1(d: Disk, g: Geometry, k: nat)
    requires k < |FatBytes(d, g)|
    ensures g.fat1 * d.sectorSize + k < |d.image|
    ensures FatBytes(d, g)[k] == d.image[g.fat1 * d.sectorSize + k]
  {
  }

  /** The buffer read for the chain from `start`: the data of the complete
      chain from `start` when there is one, an error otherwise. */
  function ReadChain(d: Disk, g: Geometry, start: nat): (r: Result<seq<byte>>)
    ensures r.Ok? ==> exists cs :: IsChain(FatBytes(d, g), g.variant, cs) && cs[0] == start
                                   && r.value == ChainData(d, g, cs)
    ensures forall cs :: IsChain(FatBytes(d, g), g.variant, cs) && cs[0] == start
                         ==> r == Ok(ChainData(d, g, cs))
    ensures r.Err? ==> ChainError(r.error)
  {
    var fat := FatBytes(d, g);
    ReadChainProperties(d, g, start);
    match Walk(fat, g.variant, start, Fuel(fat))
    case Err(e) => Err(e)
    case Ok(cs) =>
      WalkSound(fat, g.variant, start, Fuel(fat));
      Ok(ChainData(d, g, cs))
  }

  /** A walk that fails makes the chain read fail with the same error. */
  lemma ReadChainFails(d: Disk, g: Geometry, start: nat)
    ensures Walk(FatBytes(d, g), g.variant, start, Fuel(FatBytes(d, g))).Err? ==>
              ReadChain(d, g, start) == Err(Walk(FatBytes(d, g), g.variant, start, Fuel(FatBytes(d, g))).error)
  {
  }

  lemma ReadChainProperties(d: Disk, g: Geometry, start: nat)
    ensures forall cs :: IsChain(FatBytes(d, g), g.variant, cs) && cs[0] == start
                         ==> Walk(FatBytes(d, g), g.variant, start, Fuel(FatBytes(d, g))) == Ok(cs)
  {
    forall cs | IsChain(FatBytes(d, g), g.variant, cs) && cs[0] == start
      ensures Walk(FatBytes(d, g), g.variant, start, Fuel(FatBytes(d, g))) == Ok(cs)
    {
      WalkFindsEveryChain(FatBytes(d, g), g.variant, cs);
    }
  }

  // ---------------------------------------------------------------------------
  // The loop as the engine runs it

  /** `r` with `prefix` in front of its chain. */
  function PrefixWith(prefix: seq<nat>, r: Result<seq<nat>>): Result<seq<nat>>
  {
    match r
    case Ok(cs) => Ok(prefix + cs)
    case Err(e) => Err(e)
  }

  lemma PrefixWithAssoc(prefix: seq<nat>, c: nat, r: Result<seq<nat>>)
    ensures PrefixWith(prefix, PrefixWith([c], r)) == PrefixWith(prefix + [c], r)
  {
    if r.Ok? {
      assert prefix + ([c] + r.value) == (prefix + [c]) + r.value;
    }
  }

  lemma PrefixWithEmpty(r: Result<seq<nat>>)
    ensures PrefixWith([], r) == r
  {
    if r.Ok? {
      assert [] + r.value == r.value;
    }
  }

  /** The buffer of a one-cluster chain is that cluster's data. */
  lemma ChainDataSingle(d: Disk, g: Geometry, c: nat)
    requires c >= 2
    ensures ChainData(d, g, [c]) == ClusterData(d, g, c)
  {
    var parts := ClusterReads(d, g, [c]);
    assert parts == [ClusterData(d, g, c)];
    assert Flatten(parts) == parts[0] + Flatten(parts[1..]);
    assert parts[1..] == [];
  }

  /** Appending a cluster's data to the buffer of a chain gives the buffer of
      the longer chain. */
  lemma ChainDataAppend(d: Disk, g: Geometry, cs: seq<nat>, c: nat)
    requires forall i :: 0 <= i < |cs| ==> cs[i] >= 2
    requires c >= 2
    ensures ChainData(d, g, cs + [c]) == ChainData(d, g, cs) + ClusterData(d, g, c)
  {
    FlattenAppend(ClusterReads(d, g, cs), ClusterData(d, g, c));
    assert ClusterReads(d, g, cs + [c]) == ClusterReads(d, g, cs) + [ClusterData(d, g, c)];
  }

  /** The chain buffer of fat.c:387-438: the first cluster is read, then,
      while the entry of the current cluster is not the end-of-file value,
      the buffer grows by one cluster and the next cluster is appended to it.
      `count` is the number of clusters read and `total` the number of bytes
      (`total_bytes_read`).  The loop (`FollowFrom`) gives up after `Fuel`
      clusters, where the C loop would go round forever. */
  method FollowChain(d: Disk, g: Geometry, start: nat) returns (r: Result<seq<byte>>, count: nat, total: nat)
    ensures r == ReadChain(d, g, start)
    ensures r.Ok? ==> exists cs :: IsChain(FatBytes(d, g), g.variant, cs) && cs[0] == start && |cs| == count
    ensures r.Ok? ==> total == |r.value|
  {
    var fat := FatBytes(d, g);
    var v := g.variant;
    if start < 2 {
      return Err(ReservedCluster(start)), 0, 0;
    }
    var first := NextCluster(fat, v, start);
    if first.Err? {
      return Err(first.error), 0, 0;
    }
    var buf := ClusterData(d, g, start);
    ChainDataSingle(d, g, start);
    assert [] + [start] == [start];
    PrefixWithEmpty(Walk(fat, v, start, Fuel(fat)));
    r, count, total := FollowFrom(d, g, start, [], start, first.value, Fuel(fat), buf, 1);
  }

  /** The `while` loop of fat.c:390-438, one iteration per call: from
      cluster `from`, whose entry is `entry`, after `read` clusters (`before`,
      then `from`) have filled `data`.  An end-of-file entry ends it;
      otherwise the entry's cluster is read and appended, and the loop goes
      on with that cluster's entry. */
  method FollowFrom(d: Disk, g: Geometry, start: nat, ghost before: seq<nat>, from: nat, entry: nat,
                    steps: nat, data: seq<byte>, read: nat)
    returns (r: Result<seq<byte>>, count: nat, total: nat)
    requires from >= 2 && steps >= 1
    requires forall i :: 0 <= i < |before| ==> before[i] >= 2
    requires NextCluster(FatBytes(d, g), g.variant, from) == Ok(entry)
    requires Walk(FatBytes(d, g), g.variant, start, Fuel(FatBytes(d, g)))
             == PrefixWith(before, Walk(FatBytes(d, g), g.variant, from, steps))
    requires data == ChainData(d, g, before + [from])
    requires read == |before| + 1
    ensures r == ReadChain(d, g, start)
    ensures r.Ok? ==> exists cs :: IsChain(FatBytes(d, g), g.variant, cs) && cs[0] == start && |cs| == count
    ensures r.Ok? ==> total == |r.value|
    decreases steps
  {
    var fat := FatBytes(d, g);
    if entry == EndOfFile(g.variant) {
      ReadChainEnds(d, g, start, before, from, steps);
      return Ok(data), read, |data|;
    }
    FollowStep(fat, g.variant, start, before, from, steps, entry);
    var after := StepFrom(fat, g.variant, entry, steps - 1);
    if after.Err? {
      ReadChainStops(d, g, start, before + [from], entry, steps - 1);
      return Err(after.error), read, |data|;
    }
    ChainDataAppend(d, g, before + [from], entry);
    r, count, total := FollowFrom(d, g, start, before + [from], entry, after.value, steps - 1,
                                  data + ClusterData(d, g, entry), read + 1);
  }

  /** The loop invariant of `FollowFrom` carries over to the next cluster. */
  lemma FollowStep(fat: seq<byte>, v: Variant, start: nat, visited: seq<nat>, c: nat, fuel: nat, next: nat)
    requires c >= 2 && fuel >= 1
    requires NextCluster(fat, v, c) == Ok(next) && next != EndOfFile(v)
    requires Walk(fat, v, start, Fuel(fat)) == PrefixWith(visited, Walk(fat, v, c, fuel))
    ensures Walk(fat, v, start, Fuel(fat)) == PrefixWith(visited + [c], Walk(fat, v, next, fuel - 1))
  {
    WalkStep(fat, v, c, fuel, next);
    PrefixWithAssoc(visited, c, Walk(fat, v, next, fuel - 1));
  }

  /** A walk that reaches cluster `c` whose entry is the end-of-file value
      reads the chain through `c`. */
  lemma ReadChainEnds(d: Disk, g: Geometry, start: nat, visited: seq<nat>, c: nat, fuel: nat)
    requires c >= 2 && fuel >= 1
    requires forall i :: 0 <= i < |visited| ==> visited[i] >= 2
    requires NextCluster(FatBytes(d, g), g.variant, c) == Ok(EndOfFile(g.variant))
    requires Walk(FatBytes(d, g), g.variant, start, Fuel(FatBytes(d, g)))
             == PrefixWith(visited, Walk(FatBytes(d, g), g.variant, c, fuel))
    ensures ReadChain(d, g, start) == Ok(ChainData(d, g, visited + [c]))
    ensures IsChain(FatBytes(d, g), g.variant, visited + [c]) && (visited + [c])[0] == start
  {
    var fat := FatBytes(d, g);
    WalkLast(fat, g.variant, c, fuel);
    WalkSound(fat, g.variant, start, Fuel(fat));
  }

  /** A walk whose remainder from cluster `c` fails makes the chain read fail
      with the same error. */
  lemma ReadChainStops(d: Disk, g: Geometry, start: nat, prefix: seq<nat>, c: nat, fuel: nat)
    requires Walk(FatBytes(d, g), g.variant, start, Fuel(FatBytes(d, g)))
             == PrefixWith(prefix, Walk(FatBytes(d, g), g.variant, c, fuel))
    requires StepFrom(FatBytes(d, g), g.variant, c, fuel).Err?
    ensures ReadChain(d, g, start) == Err(StepFrom(FatBytes(d, g), g.variant, c, fuel).error)
  {
    ReadChainFails(d, g, start);
  }

  /** The first step of `Walk` from `c`: the entry of `c`, or the error that
      stops the walk before any entry is used. */
  function StepFrom(fat: seq<byte>, v: Variant, c: nat, fuel: nat): (r: Result<nat>)
    ensures r.Err? <==> Walk(fat, v, c, fuel).Err? && (c < 2 || fuel == 0 || NextCluster(fat, v, c).Err?)
    ensures r.Err? ==> Walk(fat, v, c, fuel) == Err(r.error)
    ensures r.Ok? ==> r == NextCluster(fat, v, c)
  {
    if c < 2 then Err(ReservedCluster(c))
    else if fuel == 0 then Err(ChainDoesNotEnd)
    else NextCluster(fat, v, c)
  }

  /** A cluster whose entry is another cluster contributes itself and then
      the walk from that cluster. */
  lemma WalkStep(fat: seq<byte>, v: Variant, c: nat, fuel: nat, next: nat)
    requires c >= 2 && fuel >= 1
    requires NextCluster(fat, v, c) == Ok(next) && next != EndOfFile(v)
    ensures Walk(fat, v, c, fuel) == PrefixWith([c], Walk(fat, v, next, fuel - 1))
  {
  }

  /** A cluster whose entry is the end-of-file value ends the walk. */
  lemma WalkLast(fat: seq<byte>, v: Variant, c: nat, fuel: nat)
    requires c >= 2 && fuel >= 1
    requires NextCluster(fat, v, c) == Ok(EndOfFile(v))
    ensures Walk(fat, v, c, fuel) == Ok([c])
  {
  }

  // ---------------------------------------------------------------------------
  // Chains of a FAT given as a table of entries

  /** Link `i` of `cs` as the entry table states it. */
  ghost predicate TableLinkAt(v: Variant, entries: seq<nat>, cs: seq<nat>, i: nat)
    requires i + 1 < |cs|
  {
    cs[i] < |entries| && entries[cs[i]] == cs[i + 1] && cs[i + 1] != EndOfFile(v)
  }

  /** `cs` is a chain of the table `entries`: data clusters inside the table,
      each entry naming the next cluster, the last entry the end-of-file
      value. */
  ghost predicate TableChain(v: Variant, entries: seq<nat>, cs: seq<nat>)
  {
    && |cs| >= 1
    && (forall i :: 0 <= i < |cs| ==> 2 <= cs[i] < |entries|)
    && (forall i: nat :: i + 1 < |cs| ==> TableLinkAt(v, entries, cs, i))
    && entries[cs[|cs| - 1]] == EndOfFile(v)
  }

  /** For clusters inside the table, the chains of the table's on-disk
      encoding are exactly the chains the table describes. */
  lemma TableChainIffChain(v: Variant, entries: seq<nat>, tail: seq<byte>, cs: seq<nat>)
    requires Encodable(v, entries)
    requires forall i :: 0 <= i < |cs| ==> cs[i] < |entries|
    ensures IsChain(EncodeFat(v, entries) + tail, v, cs) <==> TableChain(v, entries, cs)
  {
    var fat := EncodeFat(v, entries) + tail;
    forall i | 0 <= i < |cs|
      ensures NextCluster(fat, v, cs[i]) == Ok(entries[cs[i]])
    {
      NextClusterEncodeFat(v, entries, tail, cs[i]);
    }
    if IsChain(fat, v, cs) {
      forall i: nat | i + 1 < |cs|
        ensures TableLinkAt(v, entries, cs, i)
      {
        LinkAtHolds(fat, v, cs, i);
      }
    }
    if TableChain(v, entries, cs) {
      forall i: nat | i + 1 < |cs|
        ensures LinkAt(fat, v, cs, i)
      {
        assert TableLinkAt(v, entries, cs, i);
      }
    }
  }
}

=== FILE: directory.dfy ===
/** Directory-record decoding (`fat_read_entries`, fat.c:228-296): a buffer of
    32-byte records becomes the listing, in on-disk order.

    A record whose first byte is 0x00 yields nothing.  Any other record starts
    an entry: a run of long-name records (attribute 0x0F) is skipped up to the
    short record that follows it, and that short record's fields make the
    entry.  The engine does not reassemble long names (it clears `LFN`), and it
    does not skip deleted (0xE5) records; the model does the same. */
module DirectoryRecords {
  import opened FatBits
  import opened FatResult
  import opened FatTypes

  /** Size of one directory record. */
  const RecordSize: nat := 32

  /** Offset of the attribute byte in a record. */
  const AttributeOffset: nat := 0x0B

  /** An entry as a short record yields it: no long name, an 8-byte name, a
      3-byte extension and an attribute other than the long-name one. */
  ghost predicate ShortEntry(e: Entry)
  {
    && e.longName == []
    && |e.shortName| == 8
    && |e.extension| == 3
    && e.attribute != LongNameAttribute
  }

  /** The fields of a short record at their offsets (fat.c:276-291), each
      copied byte for byte; multi-byte fields are little-endian. */
  function EntryOf(rec: seq<byte>): (e: Entry)
    requires |rec| >= RecordSize
    ensures e.longName == [] && |e.shortName| == 8 && |e.extension| == 3
    ensures e.attribute == rec[AttributeOffset]
  {
    Entry([], rec[0..8], rec[8..11], rec[0x0B],
      Read16(rec[0x14], rec[0x15]),
      Read16(rec[0x16], rec[0x17]),
      Read16(rec[0x18], rec[0x19]),
      Read16(rec[0x1A], rec[0x1B]),
      Read32(rec[0x1C], rec[0x1D], rec[0x1E], rec[0x1F]))
  }

  /** The record bytes of a short entry: fields at their offsets, zero bytes
      where the engine reads nothing (0x0C-0x13). */
  function EncodeEntry(e: Entry): (r: seq<byte>)
    requires |e.shortName| == 8 && |e.extension| == 3
    ensures |r| == RecordSize
    ensures r[0..8] == e.shortName && r[8..11] == e.extension && r[AttributeOffset] == e.attribute
  {
    e.shortName + e.extension + [e.attribute] + Zeros(8)
    + Encode16(e.highCluster) + Encode16(e.modifiedTime) + Encode16(e.modifiedDate)
    + Encode16(e.lowCluster) + Encode32(e.size)
  }

  /** Decoding an encoded short entry gives the entry back. */
  lemma EntryOfEncodeEntry(e: Entry)
    requires ShortEntry(e)
    ensures EntryOf(EncodeEntry(e)) == e
  {
    var r := EncodeEntry(e);
    Read16Encode16(e.highCluster);
    Read16Encode16(e.modifiedTime);
    Read16Encode16(e.modifiedDate);
    Read16Encode16(e.lowCluster);
    Read32Encode32(e.size);
    assert r[0x14..0x16] == Encode16(e.highCluster);
    assert r[0x16..0x18] == Encode16(e.modifiedTime);
    assert r[0x18..0x1A] == Encode16(e.modifiedDate);
    assert r[0x1A..0x1C] == Encode16(e.lowCluster);
    assert r[0x1C..0x20] == Encode32(e.size);
  }

  // ---------------------------------------------------------------------------
  // Decoding

  /** Record `m` of `buf` is whole and is a long-name record. */
  ghost predicate LongRecordAt(buf: seq<byte>, m: nat)
  {
    RecordSize * m + RecordSize <= |buf| && buf[RecordSize * m + AttributeOffset] == LongNameAttribute
  }

  /** The number of bytes taken by the run of long-name records at the front
      of `buf` (fat.c:263-273); the short record follows them.  A record that
      the scan reaches but that is not wholly inside the buffer is an error. */
  function LongRun(buf: seq<byte>): (r: Result<nat>)
    decreases |buf|
    ensures r.Ok? ==> r.value % RecordSize == 0 && r.value + RecordSize <= |buf|
    ensures r.Ok? ==> buf[r.value + AttributeOffset] != LongNameAttribute
    ensures r.Err? ==> r.error == TruncatedRecord
  {
    if |buf| < RecordSize then Err(TruncatedRecord)
    else if buf[AttributeOffset] == LongNameAttribute then
      var k :- LongRun(buf[RecordSize..]);
      Ok(k + RecordSize)
    else Ok(0)
  }

  /** Every record the run skips is a long-name record, so the run is
      maximal: it ends at the first short record. */
  lemma {:induction false} LongRunSkipsOnlyLongRecords(buf: seq<byte>, m: nat)
    requires LongRun(buf).Ok?
    requires m < LongRun(buf).value / RecordSize
    ensures LongRecordAt(buf, m)
    decreases |buf|
  {
    if m > 0 {
      var rest := buf[RecordSize..];
      LongRunSkipsOnlyLongRecords(rest, m - 1);
      assert RecordSize * m + AttributeOffset == RecordSize + (RecordSize * (m - 1) + AttributeOffset);
    }
  }

  /** The bytes that follow the first record (all of them if fewer than a
      record remain). */
  function AfterRecord(buf: seq<byte>): (r: seq<byte>)
    ensures |buf| >= RecordSize ==> r == buf[RecordSize..]
    ensures |buf| < RecordSize ==> r == []
  {
    if |buf| < RecordSize then [] else buf[RecordSize..]
  }

  /** `fat_read_entries` on a buffer of bytes: the listing, in record order. */
  function Decode(buf: seq<byte>): (r: Result<seq<Entry>>)
    decreases |buf|
    ensures r.Ok? ==> RecordSize * |r.value| <= |buf|
    ensures r.Ok? ==> forall i :: 0 <= i < |r.value| ==> ShortEntry(r.value[i])
    ensures r.Err? ==> r.error == TruncatedRecord
  {
    if |buf| == 0 then Ok([])
    else if buf[0] == 0 then Decode(AfterRecord(buf))
    else
      var k :- LongRun(buf);
      var rest :- Decode(buf[k + RecordSize..]);
      Ok([EntryOf(buf[k..k + RecordSize])] + rest)
  }

  // ---------------------------------------------------------------------------
  // The layout that decoding inverts

  /** A directory slot as it is stored: an unused record, or a named object's
      long-name records followed by its short record. */
  datatype Slot =
    | Unused(record: seq<byte>)
    | Named(longRecords: seq<seq<byte>>, entry: Entry)

  ghost predicate LongRecord(rec: seq<byte>)
  {
    |rec| == RecordSize && rec[AttributeOffset] == LongNameAttribute
  }

  /** A slot the format can store: unused records start with 0x00; a named
      slot's first record does not. */
  ghost predicate ValidSlot(s: Slot)
  {
    match s
    case Unused(rec) => |rec| == RecordSize && rec[0] == 0
    case Named(longs, e) =>
      && (forall i :: 0 <= i < |longs| ==> LongRecord(longs[i]))
      && ShortEntry(e)
      && (if |longs| > 0 then longs[0][0] != 0 else e.shortName[0] != 0)
  }

  function EncodeSlot(s: Slot): (r: seq<byte>)
    requires ValidSlot(s)
  {
    match s
    case Unused(rec) => rec
    case Named(longs, e) => Flatten(longs) + EncodeEntry(e)
  }

  function EncodeSlots(slots: seq<Slot>): seq<byte>
    requires forall i :: 0 <= i < |slots| ==> ValidSlot(slots[i])
  {
    if |slots| == 0 then [] else EncodeSlot(slots[0]) + EncodeSlots(slots[1..])
  }

  /** The entries of the named slots, in slot order. */
  function EntriesOf(slots: seq<Slot>): seq<Entry>
  {
    if |slots| == 0 then []
    else if slots[0].Named? then [slots[0].entry] + EntriesOf(slots[1..])
    else EntriesOf(slots[1..])
  }

  /** A run of long-name records followed by at least a whole short record is
      skipped exactly. */
  lemma {:induction false} LongRunOfEncoded(longs: seq<seq<byte>>, tail: seq<byte>)
    requires forall i :: 0 <= i < |longs| ==> LongRecord(longs[i])
    requires |tail| >= RecordSize && tail[AttributeOffset] != LongNameAttribute
    ensures LongRun(Flatten(longs) + tail) == Ok(RecordSize * |longs|)
    decreases |longs|
  {
    if |longs| > 0 {
      var buf := Flatten(longs) + tail;
      assert buf == longs[0] + (Flatten(longs[1..]) + tail);
      assert buf[RecordSize..] == Flatten(longs[1..]) + tail;
      LongRunOfEncoded(longs[1..], tail);
    }
  }

  /** A named slot in front of any bytes decodes to its entry followed by
      whatever those bytes decode to. */
  lemma DecodeNamedSlot(longs: seq<seq<byte>>, e: Entry, tail: seq<byte>)
    requires ValidSlot(Named(longs, e))
    ensures Decode(EncodeSlot(Named(longs, e)) + tail) == Prepend([e], Decode(tail))
  {
    var rec := EncodeEntry(e);
    var buf := Flatten(longs) + (rec + tail);
    assert EncodeSlot(Named(longs, e)) + tail == buf;
    var k := RecordSize * |longs|;
    FlattenPrefixLength(longs, RecordSize, |longs|);
    assert longs[..|longs|] == longs;
    if |longs| > 0 {
      assert buf[0] == longs[0][0];
    } else {
      assert buf[0] == rec[0] == e.shortName[0];
    }
    LongRunOfEncoded(longs, rec + tail);
    assert buf[k..k + RecordSize] == rec;
    assert buf[k + RecordSize..] == tail;
    EntryOfEncodeEntry(e);
  }

  /** Decoding an encoded directory gives the entries of its named slots, in
      order: unused records yield nothing, and each long-name run collapses
      onto the short record after it. */
  lemma {:induction false} DecodeEncodeSlots(slots: seq<Slot>)
    requires forall i :: 0 <= i < |slots| ==> ValidSlot(slots[i])
    ensures Decode(EncodeSlots(slots)) == Ok(EntriesOf(slots))
    decreases |slots|
  {
    if |slots| > 0 {
      var tail := EncodeSlots(slots[1..]);
      var buf := EncodeSlots(slots);
      assert buf == EncodeSlot(slots[0]) + tail;
      DecodeEncodeSlots(slots[1..]);
      match slots[0]
      case Unused(rec) =>
        assert buf[0] == 0;
        assert AfterRecord(buf) == tail;
      case Named(longs, e) =>
        DecodeNamedSlot(longs, e, tail);
    }
  }

  // ---------------------------------------------------------------------------
  // The scan as the engine performs it

  function Prepend(acc: seq<Entry>, r: Result<seq<Entry>>): Result<seq<Entry>>
  {
    match r
    case Ok(es) => Ok(acc + es)
    case Err(e) => Err(e)
  }

  function Shift(r: Result<nat>, d: nat): Result<nat>
  {
    match r
    case Ok(k) => Ok(k + d)
    case Err(e) => Err(e)
  }

  lemma PrependAssoc(acc: seq<Entry>, e: Entry, r: Result<seq<Entry>>)
    ensures Prepend(acc, Prepend([e], r)) == Prepend(acc + [e], r)
  {
    if r.Ok? {
      assert acc + ([e] + r.value) == (acc + [e]) + r.value;
    }
  }

  /** One record of a long-name run, seen from index `j` of the buffer. */
  lemma LongRunStep(buf: seq<byte>, i: nat, j: nat)
    requires i <= j
    requires j + RecordSize <= |buf| && buf[j + AttributeOffset] == LongNameAttribute
    ensures Shift(LongRun(buf[j..]), j - i) == Shift(LongRun(buf[j + RecordSize..]), j + RecordSize - i)
  {
    assert buf[j..][RecordSize..] == buf[j + RecordSize..];
  }

  /** An unused record, seen from index `i` of the buffer. */
  lemma DecodeStepUnused(buf: seq<byte>, i: nat)
    requires i < |buf| && buf[i] == 0
    ensures i + RecordSize <= |buf| ==> Decode(buf[i..]) == Decode(buf[i + RecordSize..])
    ensures i + RecordSize > |buf| ==> Decode(buf[i..]) == Decode(buf[|buf|..])
  {
    if i + RecordSize <= |buf| {
      assert AfterRecord(buf[i..]) == buf[i + RecordSize..];
    } else {
      assert AfterRecord(buf[i..]) == buf[|buf|..];
    }
  }

  /** An entry whose short record is at index `j`, seen from index `i`. */
  lemma DecodeStepEntry(buf: seq<byte>, i: nat, j: nat)
    requires i < |buf| && buf[i] != 0 && i <= j
    requires LongRun(buf[i..]) == Ok(j - i)
    ensures j + RecordSize <= |buf|
    ensures Decode(buf[i..]) == Prepend([EntryOf(buf[j..j + RecordSize])], Decode(buf[j + RecordSize..]))
  {
    var k := j - i;
    assert buf[i..][k..k + RecordSize] == buf[j..j + RecordSize];
    assert buf[i..][k + RecordSize..] == buf[j + RecordSize..];
  }

  /** The inner loop of fat.c:263-272: step `j` over the long-name records
      that start at `i`, stopping at the first other record or at the end of
      the buffer. */
  method SkipLongRun(buf: seq<byte>, i: nat) returns (j: nat)
    requires i <= |buf|
    ensures i <= j <= |buf|
    ensures j + RecordSize <= |buf| ==> LongRun(buf[i..]) == Ok(j - i)
    ensures j + RecordSize > |buf| ==> LongRun(buf[i..]).Err?
  {
    j := i;
    while j + RecordSize <= |buf| && buf[j + AttributeOffset] == LongNameAttribute
      invariant i <= j <= |buf|
      invariant Shift(LongRun(buf[j..]), j - i) == LongRun(buf[i..])
      decreases |buf| - j
    {
      LongRunStep(buf, i, j);
      j := j + RecordSize;
    }
    assert j + RecordSize <= |buf| ==> buf[j..][AttributeOffset] == buf[j + AttributeOffset];
  }

  /** The scan of fat.c:238-295: an index `i` stepping through the buffer a
      record at a time, skipping each long-name run, and the count of entries
      appended (`linked_list_count`). */
  method ReadEntries(buf: seq<byte>) returns (r: Result<seq<Entry>>, count: nat)
    ensures r == Decode(buf)
    ensures r.Ok? ==> count == |r.value|
  {
    var acc: seq<Entry> := [];
    var i: nat := 0;
    count := 0;
    assert buf[i..] == buf;
    assert Prepend(acc, Decode(buf)) == Decode(buf) by {
      if Decode(buf).Ok? {
        assert acc + Decode(buf).value == Decode(buf).value;
      }
    }
    while i < |buf|
      invariant i <= |buf|
      invariant Prepend(acc, Decode(buf[i..])) == Decode(buf)
      invariant count == |acc|
      decreases |buf| - i
    {
      if buf[i] != 0 {
        var j := SkipLongRun(buf, i);
        if j + RecordSize > |buf| {
          return Err(TruncatedRecord), count;
        }
        DecodeStepEntry(buf, i, j);
        PrependAssoc(acc, EntryOf(buf[j..j + RecordSize]), Decode(buf[j + RecordSize..]));
        acc := acc + [EntryOf(buf[j..j + RecordSize])];
        count := count + 1;
        i := j + RecordSize;
      } else {
        DecodeStepUnused(buf, i);
        i := if i + RecordSize <= |buf| then i + RecordSize else |buf|;
      }
    }
    assert buf[i..] == [];
    assert Decode(buf[i..]) == Ok([]);
    assert acc + [] == acc;
    r := Ok(acc);
  }
}

=== FILE: fat_table.dfy ===
/** FAT entry decoding: the next-cluster lookup of `fat_read` (fat.c:348-386)
    and of the FAT32 root walk (fat.c:184, fat.c:191-194), and the table
    encoding it inverts. */
module FatTable {
  import opened FatBits
  import opened FatResult
  import opened BootSector

  /** Byte offset of cluster `c`'s entry in the FAT.  On FAT12 the source
      computes `c * 1.5` in floating point and truncates it into an integer,
      which is floor(3c / 2). */
  function EntryOffset(v: Variant, c: nat): (r: nat)
    ensures v != Fat12 ==> r % EntryBytes(v) == 0 && r / EntryBytes(v) == c
    ensures v == Fat12 ==> 2 * r <= 3 * c < 2 * r + 2
  {
    match v
    case Fat12 =>
      var q := (3 * c) / 2;
      assert 3 * c == 2 * q + (3 * c) % 2;
      q
    case Fat16 => 2 * c
    case Fat32 => 4 * c
  }

  /** The number of bytes the lookup reads at that offset. */
  function EntryBytes(v: Variant): nat
  {
    if v == Fat32 then 4 else 2
  }

  /** One more than the largest value an entry of the variant can hold. */
  function EntryLimit(v: Variant): nat
  {
    match v
    case Fat12 => 0x1000
    case Fat16 => 0x1_0000
    case Fat32 => 0x1_0000_0000
  }

  /** The entry of cluster `c` in the FAT bytes `fat`: on FAT12 the even macro
      for an even cluster and the odd macro for an odd one, little-endian 16
      and 32-bit words otherwise.  An entry that does not lie wholly inside the
      bytes read from the FAT is an error. */
  function NextCluster(fat: seq<byte>, v: Variant, c: nat): (r: Result<nat>)
    ensures r.Ok? <==> EntryOffset(v, c) + EntryBytes(v) <= |fat|
    ensures r.Err? ==> r.error == FatOffsetOutOfRange(c)
    ensures r.Ok? ==> r.value < EntryLimit(v) && c < |fat|
  {
    var off := EntryOffset(v, c);
    if off + EntryBytes(v) > |fat| then Err(FatOffsetOutOfRange(c))
    else
      match v
      case Fat12 =>
        if c % 2 == 0 then Ok(Read12Even(fat[off], fat[off + 1]))
        else Ok(Read12Odd(fat[off], fat[off + 1]))
      case Fat16 => Ok(Read16(fat[off], fat[off + 1]))
      case Fat32 => Ok(Read32(fat[off], fat[off + 1], fat[off + 2], fat[off + 3]))
  }

  /** Entry values that fit the variant's width; FAT12 tables hold entries in
      pairs. */
  ghost predicate Encodable(v: Variant, entries: seq<nat>)
  {
    && (forall i :: 0 <= i < |entries| ==> entries[i] < EntryLimit(v))
    && (v == Fat12 ==> |entries| % 2 == 0)
  }

  /** The FAT bytes holding `entries[c]` as the entry of cluster `c`. */
  function EncodeFat(v: Variant, entries: seq<nat>): (r: seq<byte>)
    requires Encodable(v, entries)
  {
    match v
    case Fat12 =>
      Flatten(seq(|entries| / 2, k requires 0 <= k < |entries| / 2 =>
        Pack12(entries[2 * k], entries[2 * k + 1])))
    case Fat16 =>
      Flatten(seq(|entries|, k requires 0 <= k < |entries| => Encode16(entries[k])))
    case Fat32 =>
      Flatten(seq(|entries|, k requires 0 <= k < |entries| => Encode32(entries[k])))
  }

  /** The lookup reads back every entry of an encoded table, whatever bytes
      follow it in the FAT (a FAT12 FAT of whole sectors rarely ends on a
      whole entry pair): each variant's offset and bit extraction address
      exactly the bits its encoding wrote. */
  lemma NextClusterEncodeFat(v: Variant, entries: seq<nat>, tail: seq<byte>, c: nat)
    requires Encodable(v, entries)
    requires c < |entries|
    ensures NextCluster(EncodeFat(v, entries) + tail, v, c) == Ok(entries[c])
  {
    match v {
      case Fat12 => Fat12RoundTrip(entries, c);
      case Fat16 => Fat16RoundTrip(entries, c);
      case Fat32 => Fat32RoundTrip(entries, c);
    }
    NextClusterExtends(EncodeFat(v, entries), tail, v, c);
  }

  /** A lookup reads only the entry's own bytes, so bytes appended after a
      FAT in which the entry lies do not change it. */
  lemma NextClusterExtends(fat: seq<byte>, tail: seq<byte>, v: Variant, c: nat)
    requires NextCluster(fat, v, c).Ok?
    ensures NextCluster(fat + tail, v, c) == NextCluster(fat, v, c)
  {
    var off := EntryOffset(v, c);
    var ext := fat + tail;
    assert off + EntryBytes(v) <= |fat|;
    match v
    case Fat12 =>
      assert ext[off] == fat[off] && ext[off + 1] == fat[off + 1];
    case Fat16 =>
      assert ext[off] == fat[off] && ext[off + 1] == fat[off + 1];
    case Fat32 =>
      assert ext[off] == fat[off] && ext[off + 1] == fat[off + 1];
      assert ext[off + 2] == fat[off + 2] && ext[off + 3] == fat[off + 3];
  }

  lemma Fat12RoundTrip(entries: seq<nat>, c: nat)
    requires Encodable(Fat12, entries)
    requires c < |entries|
    ensures NextCluster(EncodeFat(Fat12, entries), Fat12, c) == Ok(entries[c])
  {
    var chunks := seq(|entries| / 2, k requires 0 <= k < |entries| / 2 =>
      Pack12(entries[2 * k], entries[2 * k + 1]));
    var fat := Flatten(chunks);
    assert EncodeFat(Fat12, entries) == fat;
    var k := c / 2;
    var p := chunks[k];
    UniformIndex(chunks, 3, k, 0);
    UniformIndex(chunks, 3, k, 1);
    UniformIndex(chunks, 3, k, 2);
    assert |fat| == 3 * (|entries| / 2);
    if c % 2 == 0 {
      assert EntryOffset(Fat12, c) == 3 * k;
      assert fat[3 * k] == p[0] && fat[3 * k + 1] == p[1];
      assert NextCluster(fat, Fat12, c) == Ok(Read12Even(p[0], p[1]));
    } else {
      assert EntryOffset(Fat12, c) == 3 * k + 1;
      assert fat[3 * k + 1] == p[1] && fat[3 * k + 2] == p[2];
      assert NextCluster(fat, Fat12, c) == Ok(Read12Odd(p[1], p[2]));
    }
  }

  lemma Fat16RoundTrip(entries: seq<nat>, c: nat)
    requires Encodable(Fat16, entries)
    requires c < |entries|
    ensures NextCluster(EncodeFat(Fat16, entries), Fat16, c) == Ok(entries[c])
  {
    var chunks := seq(|entries|, k requires 0 <= k < |entries| => Encode16(entries[k]));
    var fat := Flatten(chunks);
    assert EncodeFat(Fat16, entries) == fat;
    UniformIndex(chunks, 2, c, 0);
    UniformIndex(chunks, 2, c, 1);
    Read16Encode16(entries[c]);
    assert NextCluster(fat, Fat16, c) == Ok(Read16(chunks[c][0], chunks[c][1]));
  }

  lemma Fat32RoundTrip(entries: seq<nat>, c: nat)
    requires Encodable(Fat32, entries)
    requires c < |entries|
    ensures NextCluster(EncodeFat(Fat32, entries), Fat32, c) == Ok(entries[c])
  {
    var chunks := seq(|entries|, k requires 0 <= k < |entries| => Encode32(entries[k]));
    var fat := Flatten(chunks);
    assert EncodeFat(Fat32, entries) == fat;
    UniformIndex(chunks, 4, c, 0);
    UniformIndex(chunks, 4, c, 1);
    UniformIndex(chunks, 4, c, 2);
    UniformIndex(chunks, 4, c, 3);
    var w := chunks[c];
    assert w == Encode32(entries[c]);
    assert EntryOffset(Fat32, c) == 4 * c && 4 * c + 4 <= |fat|;
    assert fat[4 * c] == w[0] && fat[4 * c + 1] == w[1] && fat[4 * c + 2] == w[2] && fat[4 * c + 3] == w[3];
    Read32Encode32(entries[c]);
    assert NextCluster(fat, Fat32, c) == Ok(Read32(w[0], w[1], w[2], w[3]));
  }
}

=== FILE: fat_types.dfy ===
/** The public types of fat.h: the result codes of `fat_read` and the decoded
    directory entry. */
module FatTypes {
  import opened FatBits

  /** `enum fat_read_result`. */
  datatype FatReadResult = FatRoot | FatSubDir | FatFile {

    /** The numeric value the C enum gives each result. */
    function Code(): (r: nat)
      ensures r <= 2
    {
      match this
      case FatRoot => 0
      case FatSubDir => 1
      case FatFile => 2
    }
  }

  /** Distinct results have distinct codes, so a caller comparing the return
      value of `fat_read` against the enum tells the three cases apart. */
  lemma CodesDistinct(a: FatReadResult, b: FatReadResult)
    ensures a.Code() == b.Code() <==> a == b
  {
  }

  /** One decoded directory entry (`fat_entry`).  The record's bytes 0x0C-0x13
      (creation and access stamps) are never filled in by the engine and are
      not kept.  Multi-byte fields hold the little-endian values the record
      stores.  `longName` is the `LFN` buffer: the engine clears it when a
      run of long-name records comes before the record (fat.c:266) and
      otherwise leaves the indeterminate bytes of `malloc` in it; the model
      uses the empty name in both cases. */
  datatype Entry = Entry(
    longName: seq<byte>,
    shortName: seq<byte>,     // record bytes 0x00-0x07
    extension: seq<byte>,     // record bytes 0x08-0x0A
    attribute: byte,          // record byte 0x0B
    highCluster: u16,         // record bytes 0x14-0x15
    modifiedTime: u16,        // record bytes 0x16-0x17
    modifiedDate: u16,        // record bytes 0x18-0x19
    lowCluster: u16,          // record bytes 0x1A-0x1B
    size: u32                 // record bytes 0x1C-0x1F
  )

  /** The attribute byte of a long-name fragment record. */
  const LongNameAttribute: byte := 0x0F
  /** The attribute value `fat_read` treats as a sub-directory. */
  const DirectoryAttribute: byte := 0x10
  /** The attribute value `fat_read` treats as a plain file. */
  const FileAttribute: byte := 0x00
}

=== FILE: outcome.dfy ===
/** Error outcomes of the parsing engine.

    The C engine has no error returns below `fat_init`: a division by zero, a
    read past the bytes obtained from the image, or an out-of-range listing
    index is undefined behaviour there.  The model reports each of these as a
    `FatError`, so every operation is total over its inputs. */
module FatResult {

  datatype FatError =
    | ZeroBytesPerSector      // the root-size division of fat.c:107
    | ZeroSectorsPerCluster   // the cluster-count division of fat.c:114
    | FatOffsetOutOfRange(cluster: nat)   // a FAT entry lies past the FAT bytes read
    | ReservedCluster(cluster: nat)       // cluster 0 or 1, which the C code reads in front of the data region
    | ChainDoesNotEnd         // the chain revisits a cluster: the C loop only stops when `realloc` fails
    | TruncatedRecord         // a directory record lies past the bytes read
    | IndexOutOfRange(index: nat)         // `fat_read` walks past the listing

  datatype Result<+T> = Ok(value: T) | Err(error: FatError) {

    predicate IsFailure() {
      Err?
    }

    function PropagateFailure<U>(): Result<U>
      requires Err?
    {
      Err(error)
    }

    function Extract(): T
      requires Ok?
    {
      value
    }
  }
}

=== FILE: sector_store.dfy ===
/** The sector store the engine reads through (HAL.c), reduced to what the
    engine observes: the image is a byte sequence and a multi-sector read is a
    slice of it that comes back short at the end of the image. */
module SectorStore {
  import opened FatBits

  /** An open image: its bytes and the current read granularity
      (`kmc_sector_size`). */
  datatype Disk = Disk(image: seq<byte>, sectorSize: nat)

  /** KMC_DEFAULT_SECTOR_SIZE. */
  const DefaultSectorSize: nat := 512

  /** Opening an image resets the granularity to the default, so a second
      open in the same process does not inherit a stale size. */
  function Open(image: seq<byte>): (d: Disk)
    ensures d.image == image && d.sectorSize == DefaultSectorSize
  {
    Disk(image, DefaultSectorSize)
  }

  /** `kmc_update_sector_size`: the boot sector's size is adopted only when it
      is a multiple of the current granularity; otherwise the old one stays. */
  function UpdateSectorSize(d: Disk, size: u16): (r: Disk)
    requires d.sectorSize > 0
    ensures r.image == d.image
    ensures r.sectorSize % d.sectorSize == 0
    ensures r.sectorSize == size <==> size % d.sectorSize == 0
    ensures r.sectorSize != size ==> r.sectorSize == d.sectorSize
  {
    if size % d.sectorSize == 0 then d.(sectorSize := size) else d
  }

  /** `kmc_read_multi_sector(index, count, buff)`: up to `count` sectors from
      sector `index` on; `fread` stops at the end of the image and a seek past
      the end reads nothing. */
  function ReadSectors(d: Disk, index: nat, count: nat): (r: seq<byte>)
    ensures |r| <= count * d.sectorSize
    ensures forall k :: 0 <= k < |r| ==> index * d.sectorSize + k < |d.image| && r[k] == d.image[index * d.sectorSize + k]
    ensures (index + count) * d.sectorSize <= |d.image| ==> |r| == count * d.sectorSize
    ensures |r| < count * d.sectorSize ==>
              (|r| == 0 && index * d.sectorSize >= |d.image|) || index * d.sectorSize + |r| == |d.image|
  {
    var start := index * d.sectorSize;
    var stop := start + count * d.sectorSize;
    if start >= |d.image| then []
    else if stop <= |d.image| then d.image[start..stop]
    else d.image[start..]
  }
}

=== FILE: session.dfy ===
/** The engine's state and its entry points: `fat_init` (fat.c:66-80),
    `fat_read_root` (fat.c:128-226) and `fat_read` (fat.c:298-458).

    The C engine keeps its state in statics: the open image and its sector
    size (HAL.c), the geometry `fat_read_boot_info` derives, and the listing
    `entry_head`.  The model passes that state explicitly.  An operation that
    replaces the listing returns a state holding only the new one; the old
    listing is dropped, which is what `free_entries` (fat.c:460-472) does
    before `fat_read_entries` rebuilds it. */
module Session {
  import opened FatBits
  import opened FatResult
  import opened FatTypes
  import opened SectorStore
  import opened BootSector
  import opened FatTable
  import opened ClusterChain
  import opened DirectoryRecords

  /** The engine's state between calls. */
  datatype State = State(disk: Disk, geo: Geometry, listing: seq<Entry>)

  /** The first cluster of a FAT32 root directory.  The engine fixes it at 2
      (fat.c:183) instead of reading the boot sector's root-cluster field. */
  const RootCluster: nat := 2

  // ---------------------------------------------------------------------------
  // The root directory

  /** The bytes `fat_read_root` decodes.  FAT12 and FAT16 volumes read the
      fixed root region (fat.c:140-153); FAT32 volumes read the cluster chain
      from `RootCluster` (fat.c:154-221). */
  function RootBytes(d: Disk, g: Geometry): (r: Result<seq<byte>>)
    ensures g.variant != Fat32 ==> r.Ok? && |r.value| <= g.rootSize * d.sectorSize
    ensures g.variant != Fat32 ==> r.Ok? && forall k :: 0 <= k < |r.value| ==>
              g.root * d.sectorSize + k < |d.image| && r.value[k] == d.image[g.root * d.sectorSize + k]
    ensures g.variant != Fat32 && (g.root + g.rootSize) * d.sectorSize <= |d.image| ==>
              r.Ok? && |r.value| == g.rootSize * d.sectorSize
    ensures g.variant == Fat32 && r.Ok? ==>
              exists cs :: IsChain(FatBytes(d, g), Fat32, cs) && cs[0] == RootCluster && r.value == ChainData(d, g, cs)
    ensures g.variant == Fat32 ==>
              forall cs :: IsChain(FatBytes(d, g), Fat32, cs) && cs[0] == RootCluster ==> r == Ok(ChainData(d, g, cs))
    ensures r.Err? ==> ChainError(r.error)
  {
    if g.variant == Fat32 then ReadChain(d, g, RootCluster)
    else Ok(ReadSectors(d, g.root, g.rootSize))
  }

  /** `fat_read_root`: the listing of the root directory. */
  function RootListing(d: Disk, g: Geometry): (r: Result<seq<Entry>>)
    ensures r.Ok? ==> RootBytes(d, g).Ok? && RecordSize * |r.value| <= |RootBytes(d, g).value|
    ensures r.Ok? ==> forall i :: 0 <= i < |r.value| ==> ShortEntry(r.value[i])
    ensures r.Err? ==> ChainError(r.error) || r.error == TruncatedRecord
  {
    var bytes :- RootBytes(d, g);
    Decode(bytes)
  }

  /** A root directory stored as a sequence of slots lists the entries of its
      named slots, in order. */
  lemma RootListingOfSlots(d: Disk, g: Geometry, slots: seq<Slot>)
    requires forall i :: 0 <= i < |slots| ==> ValidSlot(slots[i])
    requires RootBytes(d, g) == Ok(EncodeSlots(slots))
    ensures RootListing(d, g) == Ok(EntriesOf(slots))
  {
    DecodeEncodeSlots(slots);
  }

  // ---------------------------------------------------------------------------
  // fat_init

  /** The boot sector of an image, read at the default sector size that
      opening the image sets (fat.c:84). */
  function BootOf(image: seq<byte>): (r: seq<byte>)
    ensures |r| == BootSectorSize
  {
    BootSectorOf(Open(image))
  }

  /** `fat_init` on an image that opens: the geometry of its boot sector,
      the sector size that boot sector announces when the HAL accepts it, and
      the root listing. */
  function Init(image: seq<byte>): (r: Result<State>)
    ensures r.Ok? ==> r.value.disk.image == image
    ensures r.Ok? ==> r.value.geo.bpb == ParseBpb(BootOf(image)) && Consistent(r.value.geo)
    ensures r.Ok? ==> (r.value.disk.sectorSize == r.value.geo.bpb.bytesPerSector
                       <==> r.value.geo.bpb.bytesPerSector % DefaultSectorSize == 0)
    ensures r.Ok? && r.value.disk.sectorSize != r.value.geo.bpb.bytesPerSector ==>
              r.value.disk.sectorSize == DefaultSectorSize
    ensures r.Ok? ==> RootListing(r.value.disk, r.value.geo) == Ok(r.value.listing)
    ensures r.Ok? <==> (ReadBootInfo(BootOf(image)).Ok? &&
                        RootListing(UpdateSectorSize(Open(image), ParseBpb(BootOf(image)).bytesPerSector),
                                    ReadBootInfo(BootOf(image)).value).Ok?)
  {
    var d0 := Open(image);
    var g :- ReadBootInfo(BootOf(image));
    var d := UpdateSectorSize(d0, g.bpb.bytesPerSector);
    var listing :- RootListing(d, g);
    Ok(State(d, g, listing))
  }

  // ---------------------------------------------------------------------------
  // fat_read

  /** What `fat_read` hands back: the `fat_read_result` code, the state with
      the listing `headTemp` points to, and the file bytes (`buff_file`, as
      many as `byte_count` says) when the code is `FatFile`. */
  datatype Reply = Reply(kind: FatReadResult, state: State, file: seq<byte>)

  /** Entry `option` sends `fat_read` back to the root (fat.c:316): it has no
      first cluster, or the volume has no fixed root region. */
  predicate ReadsRoot(s: State, option: nat)
    requires option < |s.listing|
  {
    s.listing[option].lowCluster == 0 || s.geo.bpb.maxRootEntries == 0
  }

  /** The reply for entry `e` whose cluster chain is `cs` (fat.c:439-450): a
      directory replaces the listing with the one decoded from the chain's
      data, a file returns that data, and any other attribute leaves the
      state as it was and reports `FatRoot`. */
  ghost predicate Serves(s: State, e: Entry, cs: seq<nat>, reply: Reply)
    requires forall i :: 0 <= i < |cs| ==> cs[i] >= 2
  {
    if e.attribute == DirectoryAttribute then
      && reply.kind == FatSubDir
      && reply.state == s.(listing := reply.state.listing)
      && Decode(ChainData(s.disk, s.geo, cs)) == Ok(reply.state.listing)
      && reply.file == []
    else if e.attribute == FileAttribute then
      reply == Reply(FatFile, s, ChainData(s.disk, s.geo, cs))
    else
      reply == Reply(FatRoot, s, [])
  }

  /** `fat_read(option, ...)`: follow entry `option` of the current listing. */
  function Read(s: State, option: nat): (r: Result<Reply>)
    ensures r == Err(IndexOutOfRange(option)) <==> option >= |s.listing|
    ensures r.Ok? ==> r.value.state.disk == s.disk && r.value.state.geo == s.geo
    ensures option < |s.listing| && ReadsRoot(s, option) ==>
              (r.Ok? <==> RootListing(s.disk, s.geo).Ok?) &&
              (r.Ok? ==> r.value == Reply(FatRoot, s.(listing := RootListing(s.disk, s.geo).value), []))
    ensures option < |s.listing| && !ReadsRoot(s, option) && r.Ok? ==>
              exists cs :: IsChain(FatBytes(s.disk, s.geo), s.geo.variant, cs)
                           && cs[0] == s.listing[option].lowCluster
                           && Serves(s, s.listing[option], cs, r.value)
    ensures option < |s.listing| && !ReadsRoot(s, option) ==>
              forall cs :: IsChain(FatBytes(s.disk, s.geo), s.geo.variant, cs)
                           && cs[0] == s.listing[option].lowCluster ==>
                (r.Ok? <==> s.listing[option].attribute != DirectoryAttribute
                            || Decode(ChainData(s.disk, s.geo, cs)).Ok?)
                && (r.Ok? ==> Serves(s, s.listing[option], cs, r.value))
  {
    if option >= |s.listing| then Err(IndexOutOfRange(option))
    else
      var e := s.listing[option];
      if e.lowCluster == 0 || s.geo.bpb.maxRootEntries == 0 then
        var listing :- RootListing(s.disk, s.geo);
        Ok(Reply(FatRoot, s.(listing := listing), []))
      else
        var buf :- ReadChain(s.disk, s.geo, e.lowCluster);
        if e.attribute == DirectoryAttribute then
          var listing :- Decode(buf);
          Ok(Reply(FatSubDir, s.(listing := listing), []))
        else if e.attribute == FileAttribute then
          Ok(Reply(FatFile, s, buf))
        else
          Ok(Reply(FatRoot, s, []))
  }

  // ---------------------------------------------------------------------------
  // Properties of a session

  /** Going back to the root from the listing `fat_init` produced gives the
      same state again: the root is decoded from the same bytes. */
  lemma ReadRootRestoresInit(image: seq<byte>, option: nat)
    requires Init(image).Ok?
    requires option < |Init(image).value.listing| && ReadsRoot(Init(image).value, option)
    ensures Read(Init(image).value, option) == Ok(Reply(FatRoot, Init(image).value, []))
  {
    var s := Init(image).value;
    assert s.(listing := s.listing) == s;
  }

  /** The reply depends on the chosen entry and not on the rest of the
      listing: the old listing is discarded before a new one is built. */
  lemma ReadIgnoresPriorListing(s: State, t: State, i: nat, j: nat)
    requires s.disk == t.disk && s.geo == t.geo
    requires i < |s.listing| && j < |t.listing| && s.listing[i] == t.listing[j]
    ensures Read(s, i).Ok? <==> Read(t, j).Ok?
    ensures Read(s, i).Ok? ==> Read(s, i).value.kind == Read(t, j).value.kind
                               && Read(s, i).value.file == Read(t, j).value.file
    ensures Read(s, i).Ok? && (ReadsRoot(s, i) || Read(s, i).value.kind == FatSubDir) ==>
              Read(s, i).value.state == Read(t, j).value.state
  {
    var e := s.listing[i];
    if e.lowCluster == 0 || s.geo.bpb.maxRootEntries == 0 {
      assert ReadsRoot(t, j);
    } else {
      assert !ReadsRoot(t, j);
    }
  }

  /** A sub-directory whose cluster chain holds an encoded directory opens to
      the entries of that directory's named slots. */
  lemma ReadSubDirListsSlots(s: State, option: nat, cs: seq<nat>, slots: seq<Slot>)
    requires option < |s.listing| && !ReadsRoot(s, option)
    requires s.listing[option].attribute == DirectoryAttribute
    requires IsChain(FatBytes(s.disk, s.geo), s.geo.variant, cs) && cs[0] == s.listing[option].lowCluster
    requires forall i :: 0 <= i < |slots| ==> ValidSlot(slots[i])
    requires ChainData(s.disk, s.geo, cs) == EncodeSlots(slots)
    ensures Read(s, option) == Ok(Reply(FatSubDir, s.(listing := EntriesOf(slots)), []))
  {
    DecodeEncodeSlots(slots);
    assert Serves(s, s.listing[option], cs, Read(s, option).value);
  }

  /** A file whose clusters form a chain of the FAT returns the data of those
      clusters, in chain order, and leaves the state as it was. */
  lemma ReadFileReturnsChainData(s: State, option: nat, cs: seq<nat>)
    requires option < |s.listing| && !ReadsRoot(s, option)
    requires s.listing[option].attribute == FileAttribute
    requires IsChain(FatBytes(s.disk, s.geo), s.geo.variant, cs) && cs[0] == s.listing[option].lowCluster
    ensures Read(s, option) == Ok(Reply(FatFile, s, ChainData(s.disk, s.geo, cs)))
  {
    assert Serves(s, s.listing[option], cs, Read(s, option).value);
  }

  /** A file whose clusters are linked by the FAT's entry table returns the
      data of those clusters, in the order the table links them. */
  lemma ReadFileFromTable(s: State, option: nat, entries: seq<nat>, tail: seq<byte>, cs: seq<nat>)
    requires option < |s.listing| && !ReadsRoot(s, option)
    requires s.listing[option].attribute == FileAttribute
    requires Encodable(s.geo.variant, entries) && FatBytes(s.disk, s.geo) == EncodeFat(s.geo.variant, entries) + tail
    requires TableChain(s.geo.variant, entries, cs) && cs[0] == s.listing[option].lowCluster
    ensures Read(s, option) == Ok(Reply(FatFile, s, ChainData(s.disk, s.geo, cs)))
  {
    forall i | 0 <= i < |cs|
      ensures cs[i] < |entries|
    {
    }
    TableChainIffChain(s.geo.variant, entries, tail, cs);
    ReadFileReturnsChainData(s, option, cs);
  }
}
